=== FILE: README.md ===
# OilPriceAPI webhook test harness — a Dafny model of its server core

The harness is a local Express server that receives OilPriceAPI webhook
deliveries on `POST /webhook`. For each delivery it:

- checks the HMAC-SHA256 signature over `"<raw body>.<timestamp>"` against a
  300-second replay window;
- stores the delivery in the SQLite table `webhook_events`, whatever the
  verification outcome;
- pushes it to the connected dashboards.

A small JSON API lists, looks up, counts and clears stored events, and sets
or clears the webhook secret at run time.

The model covers three things:

- the signature verifier and signer (`server/signatureVerifier.js`);
- the event table with its write and read paths (`server/db.js`);
- the decisions inside the HTTP handlers (`server/index.js`).

| file | module | models |
|---|---|---|
| `js.dfy` | `Js` | the JavaScript semantics the code relies on: truthiness, optional chaining, `parseInt`, decimal rendering of numbers |
| `hex.dfy` | `Hex` | `digest('hex')` and Node's lenient `Buffer.from(s, 'hex')` |
| `signature_verifier.dfy` | `SignatureVerifier` | `verifySignature` and `generateSignature` |
| `sequences.dfy` | `Sequences` | descending sort by key, `LIMIT`/`OFFSET` paging, sums |
| `event_store.dfy` | `EventStore` | `saveEvent` (`INSERT OR REPLACE`), `getEvents`, `getEventById`, `getStats`, `clearEvents` |
| `server.dfy` | `Server` | the `/webhook`, `/api/events`, `/api/stats` and `/api/secret` handlers |

Several collaborators enter the model as parameters:

- **HMAC-SHA256** is any function from (key, message) to a 32-byte digest.
- **`JSON.parse`** is a function from text to an optional `Json` value.
- **SQLite's text for a bound number** is a function from number to text.
- **The clock** is one reading per request: `clockMs`, in milliseconds since
  the epoch. Unix seconds are `clockMs / 1000`.

The table is a sequence of rows in rowid order, together with the
AUTOINCREMENT counter. `received_at` is a number of seconds. The messages
pushed to dashboards over Socket.io are the list of notices each handler
returns.

Behaviours of the code that the model makes explicit:

- **A non-numeric timestamp never expires.** `parseInt` of such a
  `X-OilPriceAPI-Signature-Timestamp` is NaN, and `NaN > 300` is false. So the
  window check passes, and a delivery signed over such a timestamp verifies at
  every moment (`NonNumericTimestampNeverExpires`).
- **Hex decoding never throws.** `Buffer.from(s, 'hex')` stops at the first
  pair that is not hexadecimal, so the `catch` branch of `verifySignature`
  cannot be reached. A correct signature with trailing junk still verifies
  (`TrailingTextIgnored`).
- **Arrays in the body are spread into the insert.** better-sqlite3 binds
  an array argument as one parameter per element. So an `id` of `["e1"]` is
  stored under `event_id` "e1" and acknowledged with 200. Longer or empty
  arrays shift the later columns: `{"id":["a","b"],"data":{"commodity_code":[]}}`
  stores event type "b" and commodity "unknown". When the values supplied
  do not fill exactly the nine placeholders, the insert throws, giving a
  500, and nothing is stored. A boolean or a nested array throws likewise.
  The model also refuses a plain object, which better-sqlite3 would read as
  named parameters instead (see `Server.Spread` under "Left out").
- **A `null` JSON body can throw.** When a header fallback is needed,
  `payload.id` (or `payload.event`) throws on a `null` body.
- **Replacing an event gives it a new id.** `INSERT OR REPLACE` deletes the
  old row and inserts a new row with the next id. The AUTOINCREMENT counter
  survives `DELETE FROM`, so ids are never reused.
- **The default paging values apply only to absent parameters.** An
  unparseable `?limit=` is not replaced by the default.

## Model

| member | source | states |
|---|---|---|
| SignatureVerifier.Verify | server/signatureVerifier.js:17-85 | the result is valid exactly when there is no error, and exactly when the secret and both headers are non-empty, the timestamp is inside the 300 s window (NaN passes) and the signature's hex decodes to the HMAC of body + "." + timestamp; the age is recorded exactly when all three inputs are present; the recorded age is the timestamp's age at the current time; an expected signature is computed exactly when the window check passes, and it is 64 lower-case hex characters that decode to that HMAC, which makes it the one `digest('hex')` text of the HMAC (`Hex.DigestTextUnique`); the provided signature is echoed back |
| SignatureVerifier.NoSecretShortCircuits | server/signatureVerifier.js:26-30 | with no or an empty secret the result is invalid with "No secret configured" and no age or expected signature, whatever the headers |
| SignatureVerifier.HeadersCheckedInOrder | server/signatureVerifier.js:32-42 | the signature header is checked before the timestamp header; each failure returns before any age or HMAC is computed |
| SignatureVerifier.ExpiredTimestampRejected | server/signatureVerifier.js:44-52 | a numeric timestamp more than 300 s from now, past or future, is rejected as expired with its absolute age, whatever the signature |
| SignatureVerifier.WindowBoundary | server/signatureVerifier.js:46-52 | a timestamp exactly 300 s in the past or in the future, or one that parses to NaN, passes the window check |
| SignatureVerifier.Message | server/signatureVerifier.js:28-81 | each failure has its own error text: the expired text is "Timestamp expired: ", the decimal age, then "s old (max 300s)", and no other failure's text starts that way |
| SignatureVerifier.MessageInjective | server/signatureVerifier.js:28-81 | distinct failures (including expired ones with distinct ages) never share an error text |
| SignatureVerifier.NonNumericTimestampNeverExpires | server/signatureVerifier.js:45-49 | with a NaN timestamp the whole verification result is the same at every time |
| SignatureVerifier.LengthMismatchRejected | server/signatureVerifier.js:64-72 | a signature whose hex does not decode to 32 bytes is a length mismatch, with the expected signature still reported |
| SignatureVerifier.BadHexIsLengthMismatch | server/signatureVerifier.js:64-72 | a signature with a non-hex character among its first 64 is rejected as a length mismatch, even when the correct digest text follows |
| SignatureVerifier.BytesDecide | server/signatureVerifier.js:64-83 | once lengths agree, the result is valid exactly when the decoded bytes equal the HMAC, and otherwise it is "Signature mismatch" |
| SignatureVerifier.TrailingTextIgnored | server/signatureVerifier.js:66-74 | a correct signature followed by text that does not start a valid hex pair still verifies |
| SignatureVerifier.Generate | server/signatureVerifier.js:95-107 | a given non-empty timestamp is used verbatim; otherwise the timestamp is exactly the decimal text of the current second, which parseInt reads back; the signature is 64 lower-case hex characters that decode to the HMAC of the payload text (a string as is, otherwise its JSON text) + "." + timestamp |
| SignatureVerifier.RoundTrip | server/signatureVerifier.js:95-107 | a signature the signer produces under a given timestamp verifies under the same non-empty secret whenever that timestamp is within the window |
| SignatureVerifier.RoundTripDefaultTimestamp | server/signatureVerifier.js:96-98 | signing with the default timestamp and verifying at most 300 s earlier or later succeeds |
| SignatureVerifier.RoundTripSerialised | server/signatureVerifier.js:97-98 | a non-string payload signed under a given timestamp verifies against its serialised text |
| Hex.Encode | server/signatureVerifier.js:57-60 | hex output is two lower-case hex characters per byte |
| Hex.Decode | server/signatureVerifier.js:66-67 | decoding yields at most one byte per two characters |
| Hex.DecodeStopsBefore | server/signatureVerifier.js:66-67 | decoding stops at the first pair holding a non-hex character: text with one at index k decodes to at most k/2 bytes |
| Hex.DecodeEncode | server/signatureVerifier.js:66-67 | decoding an encoding followed by any text yields the bytes followed by the decoding of that text |
| Hex.EncodeDecode | server/signatureVerifier.js:57-67 | lower-case hex text of even length is the encoding of the bytes it decodes to |
| Hex.DigestTextUnique | server/signatureVerifier.js:57-62 | a digest has exactly one 64-character lower-case hex text |
| Hex.DecodeEncodeMac | server/signatureVerifier.js:57-67 | the expected signature decodes back to the digest it encodes |
| Hex.ShortTextIsNotADigest | server/signatureVerifier.js:66-72 | text shorter than 64 characters never decodes to digest length |
| Js.NatToString | server/signatureVerifier.js:96 | the decimal text of a number is non-empty, all digits, has no leading zero, and denotes the number |
| Js.ParseIntOfDecimal | server/signatureVerifier.js:46 | parseInt reads back the decimal text of n, whatever non-digit text follows (except "0x") |
| Js.ParseInt | server/signatureVerifier.js:46 | the result is NaN exactly when, after leading white space and one optional sign, the text starts with no decimal digit or is "0x" without a hex digit; a negative result needs a leading "-" |
| Js.LeadingBlanksIgnored | server/signatureVerifier.js:46 | white space in front of the number does not change what parseInt reads |
| Sequences.SortDesc | server/db.js:97 | the result is ordered by descending key and is a permutation of the input |
| Sequences.SortDescMembers | server/db.js:97 | sorting keeps the length and exactly the members |
| Sequences.SumSortDesc | server/db.js:125 | sorting does not change a sum |
| Sequences.Page | server/db.js:97-98 | a page has the size LIMIT/OFFSET gives, and its i-th element is element offset+i of the input |
| Sequences.PagesTile | server/db.js:97-98 | consecutive pages concatenate to the larger page |
| EventStore.EmptyIsValid | server/db.js:13-25 | the empty table satisfies the table's constraints |
| EventStore.Save | server/db.js:38-76 | the table stays valid; the new row is the newest, takes a fresh id above every earlier id, holds every field of the event, signature_valid as 1 or 0, and the save time; a non-NULL event_id ends up on that row only; every row without the new event_id is kept and no other row is added; the row count grows by one unless a row with the same non-NULL event_id was replaced |
| EventStore.SecondWriteWins | server/db.js:49-53 | saving a second event with the same non-NULL event_id leaves the row count unchanged and the one row with that key holds the second event |
| EventStore.NullKeysAccumulate | server/db.js:15 | an event with a NULL event_id replaces nothing: the row count grows by one and every row is kept |
| EventStore.IdsNotReusedAfterClear | server/db.js:129-130 | a save after a clear gets an id above every id assigned before the clear |
| EventStore.Matching | server/db.js:83-95 | a row is selected exactly when it meets every non-empty filter |
| EventStore.CountMatchingSize | server/db.js:103-109 | the COUNT query counts exactly the rows the SELECT filters select |
| EventStore.NoFilterCountsAll | server/db.js:83-95 | with both filters absent or empty every row is selected |
| EventStore.GetEvents | server/db.js:78-110 | total is the number of matching rows; every listed row is stored and matches; the page is newest first and of the LIMIT/OFFSET size; with offset 0 and a large enough limit it is a permutation of all matches |
| EventStore.TotalIgnoresPaging | server/db.js:103-109 | total does not depend on limit or offset |
| EventStore.PagesTile | server/db.js:97-98 | consecutive listing pages concatenate to the larger page, so paging skips and repeats nothing, in the model's order among equal received_at (see EventStore.GetEvents below) |
| EventStore.GetById | server/db.js:112-114 | the lookup returns a stored row with that id, or nothing when no row has it |
| EventStore.GetByIdFindsRow | server/db.js:112-114 | every stored row is found by its id |
| EventStore.CountType | server/db.js:120 | a type's count is positive exactly when some row has that type |
| EventStore.ValidRows | server/db.js:121 | a row is kept exactly when its signature_valid is 1 |
| EventStore.CountValid | server/db.js:121 | the valid count of a type is the number of that type's rows with signature_valid 1, so it never exceeds the type's count |
| EventStore.LastReceived | server/db.js:122 | last_received is the maximum received_at over the type's rows and is attained by one of them |
| EventStore.TypesOf | server/db.js:124 | the groups are exactly the distinct stored types, each once |
| EventStore.GetStats | server/db.js:116-127 | one entry per distinct type, sorted by descending count, each carrying its type's count, the count of its rows with signature_valid 1, and its latest received_at; the counts sum to the number of rows |
| EventStore.StatsAgreeWithListing | server/db.js:116-127 | each stats entry's count equals the total of the listing filtered on its type |
| EventStore.Clear | server/db.js:129-132 | no rows remain, the table stays valid and the id counter is kept |
| EventStore.ClearedStoreReadsEmpty | server/db.js:129-132 | after a clear the listing is empty with total 0, the stats are empty, and clearing again changes nothing |
| Server.Boot | server/index.js:39 | the secret is configured exactly when the environment variable is non-empty; the starting state keeps the invariants |
| Server.ResolveEventId | server/index.js:87 | a non-empty header wins; else a truthy body id; else "local_" + milliseconds; it throws exactly when the header is empty and the body is null |
| Server.ResolveEventType | server/index.js:88 | a non-empty header wins; else a truthy body event; else "unknown"; it throws exactly when the header is empty and the body is null |
| Server.ResolveCommodity | server/index.js:83 | a truthy data.commodity_code wins; else a truthy data.commodity; else null |
| Server.Spread | server/db.js:55-65 | a scalar binds one value; an array of scalars binds one value per element, in order; anything else is refused |
| Server.LeadingColumns | server/db.js:55-65 | the insert accepts its first three arguments exactly when they spread into three values with a non-NULL second; the three values fill event_id, event_type and commodity in order |
| Server.ScalarColumns | server/db.js:55-65 | scalar id, type and commodity each land in their own column |
| Server.ReceiveWebhook | server/index.js:63-113 | an unparseable body gives 400 and changes nothing; otherwise the reply is 200 exactly when the id and type resolve and the insert accepts the spread columns, else 500 with nothing changed; the secret is never changed and the table stays valid; a 200 acknowledges the resolved id, and the newest row holds the spread id, type and commodity, the raw body, headers, signature headers, verification outcome, error text and receive time; every other row was already stored and only rows with the same event_id are dropped; one notice is emitted |
| Server.ResolvedScalarsStored | server/index.js:83-96 | when the resolved id, type and commodity are scalars, the newest row holds exactly those resolved values |
| Server.ReplyIgnoresAuthentication | server/index.js:79-112 | the reply and the row count do not depend on the secret or the signature headers: failed verification is recorded, never rejected |
| Server.WellFormedBodyIsStored | server/index.js:83-112 | an object body whose id, event and commodity fields are strings, numbers, null or absent is stored and answered 200 |
| Server.NullBody | server/index.js:87-88 | a null body is stored exactly when both the event-id and event-type headers are non-empty |
| Server.AcknowledgedId | server/index.js:87-112 | the acknowledged id is the header, else a truthy body id, else "local_" + milliseconds |
| Server.UnsignedDeliveryScenario | server/index.js:63-113 | with no secret, a body with id "e1" and event "price.updated" is acknowledged with "e1" and stored as unverified with "No secret configured" |
| Server.SingletonArrayIdIsSpread | server/index.js:87 | a body id of ["e1"] is stored under event_id "e1" and acknowledged with 200 and the array |
| Server.ArraysShiftColumns | server/db.js:55-65 | with no headers, {"id":["a","b"],"data":{"commodity_code":[]}} stores event_id "a", event_type "b" and commodity "unknown" |
| Server.SurplusValuesRejected | server/db.js:55-65 | a two-element id array alongside a header type gives 500 and changes nothing |
| Server.NullIdIsStoredUnkeyed | server/db.js:55-65 | a body id of [null] is stored with a NULL event_id as an extra row |
| Server.ListEvents | server/index.js:120-124 | with both parameters absent the query uses 100 and 0; a listing exists exactly when neither parameter is NaN; total counts all matches; a non-negative limit bounds the page, and with no offset the page holds the limit or every match, whichever is fewer; a negative limit gives every match past the offset: max(total − offset, 0) events (see NegativeLimitListsAllMatches for their contents with no offset) |
| Server.NegativeLimitListsAllMatches | server/index.js:121-122 | a negative limit with no offset lists exactly the matching rows (as a multiset) |
| Server.ListEventsDecimal | server/index.js:121-122 | each paging parameter defaults on its own (limit 100, offset 0), and decimal text is used as given |
| Server.ListTwentyNewest | server/index.js:121-122 | the command-line client's `?limit=20` with no offset lists the first 20 matches at offset 0 |
| Server.NaNLimitIsNotDefaulted | server/index.js:121-122 | a limit that parses to NaN is not replaced by the default |
| Server.GetEvent | server/index.js:127-133 | a found row is stored and has the id the parameter denotes; the reply is 404 exactly when no stored row has that id |
| Server.GetEventByDecimalId | server/index.js:127-133 | every stored row is found under the decimal text of its id |
| Server.Stats | server/index.js:136-139 | the reply carries the full stats contract: one entry per distinct type, sorted by descending count, with its count, its count of rows with signature_valid 1, and its latest received_at; the counts sum to the number of stored events |
| Server.StatsMatchEventsListing | server/index.js:120-139 | each stats entry's count is the total that the events listing filtered on its type reports |
| Server.ClearEvents | server/index.js:142-147 | the table is emptied, the secret and id counter are kept, and one clear notice is emitted |
| Server.Utf16Length | server/index.js:175 | the JavaScript length lies between the number of code points and twice that |
| Server.Utf16Additive | server/index.js:175 | the length of a concatenation is the sum of the lengths |
| Server.Utf16Bmp | server/index.js:175 | characters up to U+FFFF count one unit each |
| Server.Utf16Astral | server/index.js:175 | characters beyond U+FFFF count two units each |
| Server.EmojiSecretAccepted | server/index.js:175-177 | eight U+1F600 characters (16 units) are accepted as a secret, eight letters are rejected |
| Server.Preview | server/index.js:163 | the preview is the first four characters, "...", and the last four; a secret shorter than four appears whole on both sides |
| Server.PreviewHidesMiddle | server/index.js:162-163 | the preview of a secret of at least 8 characters is 11 characters long and depends only on its first and last four characters |
| Server.GetSecret | server/index.js:159-165 | configured exactly when a non-empty secret is set, with a preview exactly then |
| Server.SetSecret | server/index.js:168-192 | a secret is accepted exactly when it is a string of at least 16 UTF-16 units; when accepted it is stored, its preview is returned and a configured notice is emitted; a rejection changes nothing; the table is never touched |
| Server.SecretRejections | server/index.js:171-177 | a missing, empty or non-string secret gets the "required" message, checked before the length message |
| Server.SecretTakesEffect | server/index.js:179 | after a secret is accepted the next delivery is never rejected for lack of a secret |
| Server.DeleteSecret | server/index.js:195-204 | the secret is cleared, the table kept, the status reads unconfigured, and an unconfigured notice is emitted |
| Server.ClearedSecretMarksUnverified | server/index.js:196 | once the secret is cleared every delivery is stored as unverified with "No secret configured" |
| Server.HandlersKeepGood | server/index.js:38-39 | every handler keeps the table's constraints and never stores an empty secret |

## Left out

- The HMAC and SHA-256 themselves: the model takes any function from (key, message) to 32 bytes. It states nothing about cryptographic strength or about the constant running time of `timingSafeEqual`.
- `JSON.parse` and `JSON.stringify`: they are parameters. JSON numbers are restricted to integers, so fractional numbers and their text rendering are not modelled.
- The HTTP and HTTPS servers, certificate detection, CORS, static files, the dashboard route and the `/health` endpoint (`server/index.js:149-156`): these are transport and presentation with no decisions beyond the secret check, which `GetSecret` covers.
- Socket.io delivery: notices are returned as a list; connection handling and the two separate socket servers are not modelled.
- Console logging throughout.
- The CLI and the sample payloads: these are outside the server core.
- The request body limit and the content-type check of `express.raw`: the model starts from the raw body text.
- `received_at` as text: it is a whole number of seconds taken from the request's one clock reading. The source reads the clock several times per request and stores SQLite's `CURRENT_TIMESTAMP` text.
- The ISO `receivedAt` field that `saveEvent` returns (`server/db.js:74`): it is another clock reading and is omitted from the notice.
- EventStore.GetEvents: among rows with equal `received_at` no order is promised. The model's order is one admissible order, not SQLite's.
- EventStore.GetStats: among types with equal counts no order is promised, likewise.
- Server.ListEvents: a `limit` or `offset` that `parseInt` makes NaN gives no listing (`None`). How SQLite treats a bound NaN is not modelled.
- Server.GetEvent: only an id parameter of plain decimal digits is compared as a number. Other text that SQLite's integer affinity would convert (such as `"+5"` or `"5.0"`) is answered 404 in the model.
- Server.Preview: the preview slices by code points while JavaScript slices by UTF-16 units. The two differ only for characters outside the Basic Multilingual Plane.
- The `catch` branch of `verifySignature` (`server/signatureVerifier.js:75-78`): `Buffer.from(s, 'hex')` never throws, and both buffers are compared only after their lengths agree, so that branch cannot be reached.
- Js.ParseInt: the result is an exact integer, whereas JavaScript's is a double. Above 2^53 the double is rounded, at 10^21 and beyond `String` switches to exponent form, and very long digit runs give `Infinity`; the age, the window comparison and the "Timestamp expired" text are modelled for exact integers only.
- Server.Spread: a plain object among the insert's arguments is read by better-sqlite3 as named parameters; the model treats it as refused like a boolean, and does not model named-parameter binding.
- Storage failures: the model's table never fails. In the source a SQLite error from `stmt.run` (disk full, database busy or read-only, I/O error) throws and gives a 500, and the listing and stats reads can fail the same way; `ReceiveWebhook`'s "200 exactly when the insert accepts the spread columns" holds only for a database that does not fail.
- Header values are single strings. Node's joining of repeated headers is not modelled.

=== FILE: event_store.dfy ===
/** The `webhook_events` table and its read and write paths. The table is a
    sequence of rows in rowid order plus the AUTOINCREMENT counter
    (`sqlite_sequence`); `received_at` is a number of seconds supplied by the
    caller of `Save`. */
module EventStore {
  import opened Js
  import opened Sequences

  /** One row of `webhook_events`; `signatureValid` is the stored 0/1
      integer. `event_id` is UNIQUE but nullable: `None` is SQL NULL. */
  datatype Row = Row(
    id: nat,
    eventId: Option<string>,
    eventType: string,
    commodity: Option<string>,
    payload: string,
    headers: string,
    signature: Option<string>,
    signatureTimestamp: Option<string>,
    signatureValid: nat,
    signatureError: Option<string>,
    receivedAt: nat)

  /** The column values `saveEvent` binds. */
  datatype Event = Event(
    eventId: Option<string>,
    eventType: string,
    commodity: Option<string>,
    payload: string,
    headers: string,
    signature: Option<string>,
    signatureTimestamp: Option<string>,
    signatureValid: bool,
    signatureError: Option<string>)

  /** `lastId` is the largest id ever assigned; deleting rows never lowers it. */
  datatype Store = Store(rows: seq<Row>, lastId: nat)

  const Empty: Store := Store([], 0)

  /** Rows are kept in rowid order and no two share a non-NULL `event_id`
      (under UNIQUE, NULLs never conflict with each other). */
  ghost predicate Ordered(rows: seq<Row>) {
    forall i, j :: 0 <= i < j < |rows| ==>
      rows[i].id < rows[j].id && (rows[i].eventId.Some? ==> rows[i].eventId != rows[j].eventId)
  }

  /** The table's constraints: ids are positive and at most the counter,
      non-NULL `event_id`s are unique, and `signature_valid` is 0 or 1. */
  ghost predicate Valid(st: Store) {
    && (forall i :: 0 <= i < |st.rows| ==> 0 < st.rows[i].id <= st.lastId && st.rows[i].signatureValid <= 1)
    && Ordered(st.rows)
  }

  lemma EmptyIsValid()
    ensures Valid(Empty)
  {
  }

  predicate HasEventId(rows: seq<Row>, eventId: string) {
    exists row :: row in rows && row.eventId == Some(eventId)
  }

  /** The most recently inserted row. */
  function Newest(rows: seq<Row>): Row
    requires rows != []
  {
    rows[|rows| - 1]
  }

  /** `INSERT OR REPLACE` of `e` deletes `row`: both carry the same non-NULL `event_id`. */
  predicate Replaces(e: Event, row: Row) {
    e.eventId.Some? && row.eventId == e.eventId
  }

  /** The row holds exactly the fields of `e`, with `signatureValid` stored
      as 1 when it is true and 0 otherwise. */
  predicate Records(row: Row, e: Event) {
    && row.eventId == e.eventId
    && row.eventType == e.eventType
    && row.commodity == e.commodity
    && row.payload == e.payload
    && row.headers == e.headers
    && row.signature == e.signature
    && row.signatureTimestamp == e.signatureTimestamp
    && row.signatureValid <= 1
    && (row.signatureValid == 1 <==> e.signatureValid)
    && row.signatureError == e.signatureError
  }

  function Stamp(e: Event, id: nat, receivedAt: nat): Row {
    Row(id, e.eventId, e.eventType, e.commodity, e.payload, e.headers, e.signature,
        e.signatureTimestamp, if e.signatureValid then 1 else 0, e.signatureError, receivedAt)
  }

  /** The rows that saving `e` does not replace, in order. */
  function Without(rows: seq<Row>, e: Event): (r: seq<Row>)
    ensures forall row :: row in r <==> row in rows && !Replaces(e, row)
    ensures |r| <= |rows|
  {
    if rows == [] then []
    else if Replaces(e, rows[0]) then Without(rows[1..], e)
    else [rows[0]] + Without(rows[1..], e)
  }

  lemma {:induction false} WithoutOrdered(rows: seq<Row>, e: Event)
    requires Ordered(rows)
    ensures Ordered(Without(rows, e))
  {
    if rows != [] {
      WithoutOrdered(rows[1..], e);
      if !Replaces(e, rows[0]) {
        var rest := Without(rows[1..], e);
        var r := [rows[0]] + rest;
        forall i, j | 0 <= i < j < |r|
          ensures r[i].id < r[j].id && (r[i].eventId.Some? ==> r[i].eventId != r[j].eventId)
        {
          assert r[j] == rest[j - 1] && r[j] in rows[1..];
          if i > 0 {
            assert r[i] == rest[i - 1];
          } else {
            var k :| 0 <= k < |rows[1..]| && rows[1..][k] == r[j];
            assert rows[k + 1] == r[j];
          }
        }
      }
    }
  }

  lemma {:induction false} WithoutSize(rows: seq<Row>, e: Event)
    requires Ordered(rows)
    ensures |Without(rows, e)| == if e.eventId.Some? && HasEventId(rows, e.eventId.value) then |rows| - 1 else |rows|
  {
    if rows != [] {
      assert Ordered(rows[1..]);
      WithoutSize(rows[1..], e);
      assert rows == [rows[0]] + rows[1..];
      if Replaces(e, rows[0]) {
        assert !HasEventId(rows[1..], e.eventId.value) by {
          forall k | 0 <= k < |rows[1..]| ensures rows[1..][k].eventId != e.eventId {
            assert rows[1..][k] == rows[k + 1];
          }
        }
      } else if e.eventId.Some? {
        assert HasEventId(rows, e.eventId.value) <==> HasEventId(rows[1..], e.eventId.value);
      }
    }
  }

  /** `saveEvent`: `INSERT OR REPLACE` into a table whose `event_id` is
      UNIQUE. A row with the same non-NULL `event_id` is deleted, and the new
      row is appended with the next AUTOINCREMENT id, stamped with the save
      time `now`. A NULL `event_id` conflicts with nothing. */
  function Save(st: Store, e: Event, now: nat): (r: Store)
    requires Valid(st)
    ensures Valid(r)
    ensures r.lastId > st.lastId
    ensures forall row :: row in st.rows ==> row.id < r.lastId
    ensures r.rows != [] && Records(Newest(r.rows), e)
    ensures Newest(r.rows).id == r.lastId && Newest(r.rows).receivedAt == now
    ensures e.eventId.Some? ==> HasEventId(r.rows, e.eventId.value)
    ensures forall row :: row in r.rows && Replaces(e, row) ==> row == Newest(r.rows)
    ensures forall row :: row in st.rows && !Replaces(e, row) ==> row in r.rows
    ensures forall row :: row in r.rows && row.id != r.lastId ==> row in st.rows && !Replaces(e, row)
    ensures |r.rows| == if e.eventId.Some? && HasEventId(st.rows, e.eventId.value) then |st.rows| else |st.rows| + 1
  {
    var id := st.lastId + 1;
    var kept := Without(st.rows, e);
    var row := Stamp(e, id, now);
    AppendValid(st, e, kept, row);
    WithoutSize(st.rows, e);
    Store(kept + [row], id)
  }

  /** Appending a row with the next id to the rows that saving `e` does not
      replace keeps the table's constraints. */
  lemma AppendValid(st: Store, e: Event, kept: seq<Row>, row: Row)
    requires Valid(st)
    requires kept == Without(st.rows, e) && row.eventId == e.eventId
    requires row.id == st.lastId + 1 && row.signatureValid <= 1
    ensures Valid(Store(kept + [row], row.id))
    ensures forall r :: r in kept + [row] && r.id != row.id ==> r in st.rows && !Replaces(e, r)
  {
    WithoutOrdered(st.rows, e);
    var rows := kept + [row];
    forall i | 0 <= i < |kept| ensures kept[i] in st.rows && !Replaces(e, kept[i]) {
      assert kept[i] in kept;
    }
    forall i | 0 <= i < |st.rows| ensures st.rows[i].id <= st.lastId {
    }
    forall i, j | 0 <= i < j < |rows|
      ensures rows[i].id < rows[j].id && (rows[i].eventId.Some? ==> rows[i].eventId != rows[j].eventId)
    {
      if j == |kept| {
        var k :| 0 <= k < |st.rows| && st.rows[k] == kept[i];
      }
    }
    forall r | r in rows && r.id != row.id ensures r in st.rows && !Replaces(e, r) {
      var i :| 0 <= i < |rows| && rows[i] == r;
      if i < |kept| {
        assert r == kept[i];
      }
    }
  }

  /** A repeated delivery replaces the earlier one: after saving two events
      with the same non-NULL `event_id`, exactly the rows of the first save
      remain in number, and the one row with that key carries the second
      event. */
  lemma SecondWriteWins(st: Store, first: Event, second: Event, t1: nat, t2: nat)
    requires Valid(st) && first.eventId == second.eventId && first.eventId.Some?
    ensures var once := Save(st, first, t1);
            var twice := Save(once, second, t2);
            && |twice.rows| == |once.rows|
            && (forall row :: row in twice.rows && row.eventId == first.eventId ==> Records(row, second))
            && (forall i, j :: 0 <= i < j < |twice.rows| ==>
                  twice.rows[i].eventId != first.eventId || twice.rows[j].eventId != first.eventId)
  {
  }

  /** Deliveries whose `event_id` is NULL never replace anything: each save
      adds a row. */
  lemma NullKeysAccumulate(st: Store, e: Event, now: nat)
    requires Valid(st) && e.eventId.None?
    ensures |Save(st, e, now).rows| == |st.rows| + 1
    ensures forall row :: row in st.rows ==> row in Save(st, e, now).rows
  {
  }

  /** The filters of `getEvents`: each applies only when it is non-empty,
      and both must hold (AND). A row with a NULL commodity never matches a
      commodity filter. */
  datatype Query = Query(eventType: Option<string>, commodity: Option<string>, limit: nat, offset: nat)

  predicate Matches(q: Query, row: Row) {
    && (Present(q.eventType) ==> row.eventType == q.eventType.value)
    && (Present(q.commodity) ==> row.commodity == Some(q.commodity.value))
  }

  /** `SELECT * … WHERE <filters>`, in rowid order. */
  function Matching(rows: seq<Row>, q: Query): (r: seq<Row>)
    ensures forall row :: row in r <==> row in rows && Matches(q, row)
  {
    if rows == [] then []
    else if Matches(q, rows[0]) then [rows[0]] + Matching(rows[1..], q)
    else Matching(rows[1..], q)
  }

  /** `SELECT COUNT(*) … WHERE <filters>`: the second query of `getEvents`. */
  function CountMatching(rows: seq<Row>, q: Query): nat {
    if rows == [] then 0 else (if Matches(q, rows[0]) then 1 else 0) + CountMatching(rows[1..], q)
  }

  lemma {:induction false} CountMatchingSize(rows: seq<Row>, q: Query)
    ensures CountMatching(rows, q) == |Matching(rows, q)|
  {
    if rows != [] {
      CountMatchingSize(rows[1..], q);
    }
  }

  function ReceivedAt(row: Row): int {
    row.receivedAt
  }

  datatype Listing = Listing(events: seq<Row>, total: nat)

  /** `getEvents`: the matching rows, newest `received_at` first, with
      `offset` rows skipped and at most `limit` kept; `total` counts every
      matching row, whatever the page. Among rows with equal `received_at`
      no particular order is promised. */
  function GetEvents(st: Store, q: Query): (r: Listing)
    ensures r.total == |Matching(st.rows, q)|
    ensures forall row :: row in r.events ==> row in st.rows && Matches(q, row)
    ensures SortedDesc(r.events, ReceivedAt)
    ensures |r.events| == if q.offset >= r.total then 0
                          else if q.limit <= r.total - q.offset then q.limit
                          else r.total - q.offset
    ensures q.offset == 0 && q.limit >= r.total ==> multiset(r.events) == multiset(Matching(st.rows, q))
  {
    var matching := Matching(st.rows, q);
    var ordered := SortDesc(matching, ReceivedAt);
    CountMatchingSize(st.rows, q);
    SortDescMembers(matching, ReceivedAt);
    PageOfSorted(ordered, ReceivedAt, q.limit, q.offset);
    assert q.offset == 0 && q.limit >= |ordered| ==> Page(ordered, q.limit, q.offset) == ordered;
    Listing(Page(ordered, q.limit, q.offset), CountMatching(st.rows, q))
  }

  /** `total` does not depend on `limit` or `offset`. */
  lemma TotalIgnoresPaging(st: Store, q: Query, limit: nat, offset: nat)
    ensures GetEvents(st, q).total == GetEvents(st, q.(limit := limit, offset := offset)).total
  {
    SameFiltersSameRows(st.rows, q, q.(limit := limit, offset := offset));
  }

  /** With neither filter set (absent or empty), every row is counted. */
  lemma {:induction false} NoFilterCountsAll(rows: seq<Row>, q: Query)
    requires !Present(q.eventType) && !Present(q.commodity)
    ensures Matching(rows, q) == rows
  {
    if rows != [] {
      NoFilterCountsAll(rows[1..], q);
      assert rows == [rows[0]] + rows[1..];
    }
  }

  /** Paging through the listing loses and repeats nothing: the page of
      `a` rows at `offset` followed by the page of `b` rows right after it
      is the page of `a + b` rows at `offset`. */
  lemma PagesTile(st: Store, q: Query, a: nat, b: nat)
    ensures GetEvents(st, q.(limit := a)).events + GetEvents(st, q.(limit := b, offset := q.offset + a)).events
         == GetEvents(st, q.(limit := a + b)).events
  {
    var ordered := SortDesc(Matching(st.rows, q), ReceivedAt);
    assert Matching(st.rows, q.(limit := a)) == Matching(st.rows, q) by {
      SameFiltersSameRows(st.rows, q, q.(limit := a));
    }
    assert Matching(st.rows, q.(limit := b, offset := q.offset + a)) == Matching(st.rows, q) by {
      SameFiltersSameRows(st.rows, q, q.(limit := b, offset := q.offset + a));
    }
    assert Matching(st.rows, q.(limit := a + b)) == Matching(st.rows, q) by {
      SameFiltersSameRows(st.rows, q, q.(limit := a + b));
    }
    Sequences.PagesTile(ordered, a, b, q.offset);
  }

  lemma {:induction false} SameFiltersSameRows(rows: seq<Row>, q: Query, q': Query)
    requires q.eventType == q'.eventType && q.commodity == q'.commodity
    ensures Matching(rows, q) == Matching(rows, q')
  {
    if rows != [] {
      SameFiltersSameRows(rows[1..], q, q');
    }
  }

  /** `getEventById`: the row with that id, if there is one. */
  function GetById(st: Store, id: int): (r: Option<Row>)
    ensures r.Some? ==> r.value in st.rows && r.value.id == id
    ensures r.None? ==> forall row :: row in st.rows ==> row.id != id
  {
    Find(st.rows, id)
  }

  function Find(rows: seq<Row>, id: int): (r: Option<Row>)
    ensures r.Some? ==> r.value in rows && r.value.id == id
    ensures r.None? ==> forall row :: row in rows ==> row.id != id
  {
    if rows == [] then None
    else if rows[0].id == id then Some(rows[0])
    else Find(rows[1..], id)
  }

  /** Ids are unique, so the lookup finds exactly the stored row. */
  lemma GetByIdFindsRow(st: Store, row: Row)
    requires Valid(st) && row in st.rows
    ensures GetById(st, row.id) == Some(row)
  {
    var r := GetById(st, row.id);
    var i :| 0 <= i < |st.rows| && st.rows[i] == row;
    var j :| 0 <= j < |st.rows| && st.rows[j] == r.value;
    assert st.rows[i].id == st.rows[j].id;
  }

  /** One entry of `getStats`. */
  datatype TypeStats = TypeStats(eventType: string, count: nat, validSignatures: nat, lastReceived: nat)

  /** `COUNT(*)` over the rows of one `event_type`. */
  function CountType(rows: seq<Row>, t: string): (n: nat)
    ensures n > 0 <==> exists row :: row in rows && row.eventType == t
    ensures n <= |rows|
  {
    if rows == [] then 0
    else
      assert rows[0] in rows;
      assert forall row :: row in rows[1..] ==> row in rows;
      assert forall row :: row in rows ==> row == rows[0] || row in rows[1..];
      (if rows[0].eventType == t then 1 else 0) + CountType(rows[1..], t)
  }

  /** The rows stored with `signature_valid = 1`, in order. */
  function ValidRows(rows: seq<Row>): (r: seq<Row>)
    ensures forall row :: row in r <==> row in rows && row.signatureValid == 1
  {
    if rows == [] then []
    else if rows[0].signatureValid == 1 then [rows[0]] + ValidRows(rows[1..])
    else ValidRows(rows[1..])
  }

  /** `SUM(CASE WHEN signature_valid = 1 THEN 1 ELSE 0 END)` over one type:
      the number of rows of that type among the validly signed rows. */
  function CountValid(rows: seq<Row>, t: string): (n: nat)
    ensures n == CountType(ValidRows(rows), t)
    ensures n <= CountType(rows, t)
  {
    if rows == [] then 0
    else
      var rest := CountValid(rows[1..], t);
      assert rows[0].signatureValid == 1 ==> ([rows[0]] + ValidRows(rows[1..]))[1..] == ValidRows(rows[1..]);
      (if rows[0].eventType == t && rows[0].signatureValid == 1 then 1 else 0) + rest
  }

  /** `MAX(received_at)` over one type. */
  function LastReceived(rows: seq<Row>, t: string): (m: nat)
    ensures forall row :: row in rows && row.eventType == t ==> row.receivedAt <= m
    ensures CountType(rows, t) > 0 ==> exists row :: row in rows && row.eventType == t && row.receivedAt == m
    ensures CountType(rows, t) == 0 ==> m == 0
  {
    if rows == [] then 0
    else
      var m := LastReceived(rows[1..], t);
      assert forall row :: row in rows ==> row == rows[0] || row in rows[1..];
      if rows[0].eventType == t && rows[0].receivedAt >= m then
        assert rows[0] in rows;
        rows[0].receivedAt
      else
        assert m > 0 ==> CountType(rows[1..], t) > 0;
        m
  }

  function Summarize(rows: seq<Row>, t: string): TypeStats {
    TypeStats(t, CountType(rows, t), CountValid(rows, t), LastReceived(rows, t))
  }

  /** The distinct `event_type` values of the rows (`GROUP BY event_type`). */
  function TypesOf(rows: seq<Row>): (ts: seq<string>)
    ensures NoDuplicates(ts)
    ensures forall t :: t in ts <==> exists row :: row in rows && row.eventType == t
  {
    if rows == [] then []
    else
      var rest := TypesOf(rows[1..]);
      assert forall row :: row in rows ==> row == rows[0] || row in rows[1..];
      assert rows[0] in rows;
      if rows[0].eventType in rest then rest
      else
        assert forall j :: 0 <= j < |rest| ==> rest[j] in rest;
        [rows[0].eventType] + rest
  }

  function Summaries(rows: seq<Row>, ts: seq<string>): (r: seq<TypeStats>)
    ensures |r| == |ts|
    ensures forall i :: 0 <= i < |ts| ==> r[i] == Summarize(rows, ts[i])
  {
    if ts == [] then [] else [Summarize(rows, ts[0])] + Summaries(rows, ts[1..])
  }

  function EntryCount(e: TypeStats): int {
    e.count
  }

  /** Rows whose type is one of `ts`. */
  function CountIn(rows: seq<Row>, ts: seq<string>): nat {
    if rows == [] then 0 else (if rows[0].eventType in ts then 1 else 0) + CountIn(rows[1..], ts)
  }

  lemma {:induction false} CountInSplit(rows: seq<Row>, ts: seq<string>)
    requires ts != [] && ts[0] !in ts[1..]
    ensures CountIn(rows, ts) == CountType(rows, ts[0]) + CountIn(rows, ts[1..])
  {
    if rows != [] {
      CountInSplit(rows[1..], ts);
      assert rows[0].eventType in ts <==> rows[0].eventType == ts[0] || rows[0].eventType in ts[1..] by {
        assert ts == [ts[0]] + ts[1..];
      }
    }
  }

  lemma {:induction false} CountInCovering(rows: seq<Row>, ts: seq<string>)
    requires forall row :: row in rows ==> row.eventType in ts
    ensures CountIn(rows, ts) == |rows|
  {
    if rows != [] {
      assert rows[0] in rows;
      assert forall row :: row in rows[1..] ==> row in rows;
      CountInCovering(rows[1..], ts);
    }
  }

  lemma {:induction false} CountInNone(rows: seq<Row>)
    ensures CountIn(rows, []) == 0
  {
    if rows != [] {
      CountInNone(rows[1..]);
    }
  }

  /** The counts of the groups of distinct types `ts` add up to the rows of those types. */
  lemma {:induction false} SummariesSum(rows: seq<Row>, ts: seq<string>)
    requires NoDuplicates(ts)
    ensures Sum(Summaries(rows, ts), EntryCount) == CountIn(rows, ts)
  {
    if ts == [] {
      CountInNone(rows);
    } else {
      var s := Summaries(rows, ts);
      assert NoDuplicates(ts[1..]);
      SummariesSum(rows, ts[1..]);
      assert s[1..] == Summaries(rows, ts[1..]);
      assert ts[0] !in ts[1..] by {
        forall k | 0 <= k < |ts[1..]| ensures ts[1..][k] != ts[0] {
          assert ts[1..][k] == ts[k + 1];
        }
      }
      CountInSplit(rows, ts);
    }
  }

  /** Every entry of the sorted groups is the summary of its own type. */
  lemma StatsEntries(rows: seq<Row>)
    ensures var r := SortDesc(Summaries(rows, TypesOf(rows)), EntryCount);
            forall e :: e in r ==> e == Summarize(rows, e.eventType) && e.eventType in TypesOf(rows)
  {
    var ts := TypesOf(rows);
    var groups := Summaries(rows, ts);
    var r := SortDesc(groups, EntryCount);
    SortDescMembers(groups, EntryCount);
    forall e | e in r ensures e == Summarize(rows, e.eventType) && e.eventType in ts {
      assert e in groups;
      var i :| 0 <= i < |groups| && groups[i] == e;
      assert groups[i] == Summarize(rows, ts[i]);
      assert ts[i] in ts;
    }
  }

  /** The sorted groups have one entry per type. */
  lemma StatsDistinct(rows: seq<Row>)
    ensures var r := SortDesc(Summaries(rows, TypesOf(rows)), EntryCount);
            forall i, j :: 0 <= i < j < |r| ==> r[i].eventType != r[j].eventType
  {
    var ts := TypesOf(rows);
    var groups := Summaries(rows, ts);
    var r := SortDesc(groups, EntryCount);
    assert NoDuplicates(groups) by {
      forall i, j | 0 <= i < j < |groups| ensures groups[i] != groups[j] {
        assert groups[i].eventType == ts[i] && groups[j].eventType == ts[j];
      }
    }
    PermutationNoDuplicates(groups, r);
    StatsEntries(rows);
    forall i, j | 0 <= i < j < |r| ensures r[i].eventType != r[j].eventType {
      assert r[i] in r && r[j] in r;
    }
  }

  /** Every stored type has an entry. */
  lemma StatsCover(rows: seq<Row>)
    ensures var r := SortDesc(Summaries(rows, TypesOf(rows)), EntryCount);
            forall row :: row in rows ==> exists e :: e in r && e.eventType == row.eventType
  {
    var ts := TypesOf(rows);
    var groups := Summaries(rows, ts);
    var r := SortDesc(groups, EntryCount);
    SortDescMembers(groups, EntryCount);
    forall row | row in rows ensures exists e :: e in r && e.eventType == row.eventType {
      assert row.eventType in ts;
      var k :| 0 <= k < |ts| && ts[k] == row.eventType;
      assert groups[k] == Summarize(rows, ts[k]);
      assert groups[k] in groups;
      assert groups[k] in r;
    }
  }

  /** The counts add up to the number of rows. */
  lemma StatsSum(rows: seq<Row>)
    ensures Sum(SortDesc(Summaries(rows, TypesOf(rows)), EntryCount), EntryCount) == |rows|
  {
    var ts := TypesOf(rows);
    var groups := Summaries(rows, ts);
    SumSortDesc(groups, EntryCount, EntryCount);
    SummariesSum(rows, ts);
    CountInCovering(rows, ts);
  }

  /** `getStats`: one entry per distinct `event_type`, most frequent first
      (no order is promised among equal counts). */
  function GetStats(st: Store): (r: seq<TypeStats>)
    ensures SortedDesc(r, EntryCount)
    ensures forall i, j :: 0 <= i < j < |r| ==> r[i].eventType != r[j].eventType
    ensures forall row :: row in st.rows ==> exists e :: e in r && e.eventType == row.eventType
    ensures forall e :: e in r ==> e.count == CountType(st.rows, e.eventType) && e.count > 0
    ensures forall e :: e in r ==>
              e.validSignatures == CountType(ValidRows(st.rows), e.eventType) && e.validSignatures <= e.count
    ensures forall e :: e in r ==>
              && (exists row :: row in st.rows && row.eventType == e.eventType && row.receivedAt == e.lastReceived)
              && (forall row :: row in st.rows && row.eventType == e.eventType ==> row.receivedAt <= e.lastReceived)
    ensures Sum(r, EntryCount) == |st.rows|
  {
    StatsEntries(st.rows);
    StatsDistinct(st.rows);
    StatsCover(st.rows);
    StatsSum(st.rows);
    SortDesc(Summaries(st.rows, TypesOf(st.rows)), EntryCount)
  }

  /** A stats entry and the listing filtered on its type agree: `count` is
      the `total` that listing reports. */
  lemma StatsAgreeWithListing(st: Store, limit: nat, offset: nat)
    ensures forall e :: e in GetStats(st) && e.eventType != "" ==>
              GetEvents(st, Query(Some(e.eventType), None, limit, offset)).total == e.count
  {
    forall e | e in GetStats(st) && e.eventType != ""
      ensures GetEvents(st, Query(Some(e.eventType), None, limit, offset)).total == e.count
    {
      TypeCountIsListingTotal(st.rows, e.eventType, limit, offset);
    }
  }

  lemma {:induction false} TypeCountIsListingTotal(rows: seq<Row>, t: string, limit: nat, offset: nat)
    requires t != ""
    ensures |Matching(rows, Query(Some(t), None, limit, offset))| == CountType(rows, t)
  {
    if rows != [] {
      TypeCountIsListingTotal(rows[1..], t, limit, offset);
    }
  }

  /** `clearEvents`: every row is deleted; the AUTOINCREMENT counter is
      kept, so ids are never reused after a clear. */
  function Clear(st: Store): (r: Store)
    ensures Valid(r)
    ensures r.lastId == st.lastId
    ensures r.rows == []
  {
    Store([], st.lastId)
  }

  /** After a clear, the listing is empty with total 0 and there are no stats;
      clearing again changes nothing. */
  lemma ClearedStoreReadsEmpty(st: Store, q: Query)
    ensures GetEvents(Clear(st), q) == Listing([], 0)
    ensures GetStats(Clear(st)) == []
    ensures Clear(Clear(st)) == Clear(st)
  {
  }

  /** A save after a clear gets an id larger than any id ever assigned before it. */
  lemma IdsNotReusedAfterClear(st: Store, e: Event, now: nat)
    requires Valid(st)
    ensures forall row :: row in st.rows ==> row.id < Save(Clear(st), e, now).lastId
  {
  }
}

=== FILE: hex.dfy ===
/** Hexadecimal text and bytes as the verifier uses them: `digest('hex')`
    writes lower-case pairs, and Node's `Buffer.from(s, 'hex')` reads pairs
    of either case, stopping silently at the first pair that is not
    hexadecimal and dropping an odd trailing character. */
module Hex {
  import opened Js

  type Byte = b: int | 0 <= b < 256

  /** An HMAC-SHA256 digest: always 32 bytes. */
  type Mac = m: seq<Byte> | |m| == 32 witness seq(32, _ => 0)

  function LowerHexDigit(d: nat): (c: char)
    requires d < 16
    ensures DigitValue(c) == Some(d)
    ensures '0' <= c <= '9' || 'a' <= c <= 'f'
  {
    if d < 10 then ('0' as nat + d) as char else ('a' as nat + d - 10) as char
  }

  /** Text made only of lower-case hexadecimal digits. */
  predicate LowerHex(s: string) {
    forall i :: 0 <= i < |s| ==> '0' <= s[i] <= '9' || 'a' <= s[i] <= 'f'
  }

  /** `Buffer.prototype.toString('hex')` / `digest('hex')`. */
  function Encode(bytes: seq<Byte>): (r: string)
    ensures |r| == 2 * |bytes|
    ensures LowerHex(r)
  {
    if bytes == [] then []
    else [LowerHexDigit(bytes[0] / 16), LowerHexDigit(bytes[0] % 16)] + Encode(bytes[1..])
  }

  /** `Buffer.from(s, 'hex')`: never fails; it yields the bytes of the
      leading run of well-formed pairs. */
  function Decode(s: string): (r: seq<Byte>)
    ensures |r| <= |s| / 2
  {
    if |s| < 2 then []
    else
      match (DigitValue(s[0]), DigitValue(s[1]))
      case (Some(hi), Some(lo)) => [hi * 16 + lo] + Decode(s[2..])
      case _ => []
  }

  /** Decoding reads back every encoded byte and then carries on into
      whatever text follows, exactly as it would on that text alone. */
  lemma {:induction false} DecodeEncode(bytes: seq<Byte>, tail: string)
    ensures Decode(Encode(bytes) + tail) == bytes + Decode(tail)
  {
    if bytes == [] {
      assert Encode(bytes) + tail == tail;
    } else {
      var b := bytes[0];
      var rest := Encode(bytes[1..]) + tail;
      calc {
        Decode(Encode(bytes) + tail);
        { EncodeFirst(bytes, tail); }
        Decode([LowerHexDigit(b / 16), LowerHexDigit(b % 16)] + rest);
        { DecodePair(b, rest); }
        [b] + Decode(rest);
        { DecodeEncode(bytes[1..], tail); }
        [b] + (bytes[1..] + Decode(tail));
        { assert [b] + bytes[1..] == bytes; }
        bytes + Decode(tail);
      }
    }
  }

  lemma EncodeFirst(bytes: seq<Byte>, tail: string)
    requires bytes != []
    ensures Encode(bytes) + tail
         == [LowerHexDigit(bytes[0] / 16), LowerHexDigit(bytes[0] % 16)] + (Encode(bytes[1..]) + tail)
  {
  }

  /** One encoded byte in front of any text decodes to that byte first. */
  lemma DecodePair(b: Byte, rest: string)
    ensures Decode([LowerHexDigit(b / 16), LowerHexDigit(b % 16)] + rest) == [b] + Decode(rest)
  {
    var s := [LowerHexDigit(b / 16), LowerHexDigit(b % 16)] + rest;
    assert s[2..] == rest;
  }

  /** The encoding of a digest decodes back to that digest. */
  lemma DecodeEncodeMac(m: Mac)
    ensures Decode(Encode(m)) == m
  {
    DecodeEncode(m, []);
    assert Encode(m) + [] == Encode(m);
  }

  lemma LowerHexDigitOf(c: char)
    requires '0' <= c <= '9' || 'a' <= c <= 'f'
    ensures DigitValue(c).Some? && LowerHexDigit(DigitValue(c).value) == c
  {
  }

  /** Encoding inverts decoding on lower-case text of even length: such
      text is the one encoding of the bytes it decodes to. */
  lemma {:induction false} EncodeDecode(s: string)
    requires LowerHex(s) && |s| % 2 == 0
    ensures Encode(Decode(s)) == s
  {
    if |s| >= 2 {
      var b := LowerPair(s);
      var rest := Decode(s[2..]);
      LowerHexSuffix(s);
      calc {
        Encode(Decode(s));
        Encode([b] + rest);
        { assert ([b] + rest)[0] == b && ([b] + rest)[1..] == rest; }
        [LowerHexDigit(b / 16), LowerHexDigit(b % 16)] + Encode(rest);
        { EncodeDecode(s[2..]); }
        [s[0], s[1]] + s[2..];
        s;
      }
    }
  }

  /** The byte that the first two characters of lower-case text decode to,
      and which encodes back to them. */
  function LowerPair(s: string): (b: Byte)
    requires |s| >= 2 && LowerHex(s)
    ensures Decode(s) == [b] + Decode(s[2..])
    ensures LowerHexDigit(b / 16) == s[0] && LowerHexDigit(b % 16) == s[1]
  {
    LowerHexDigitOf(s[0]);
    LowerHexDigitOf(s[1]);
    var hi := DigitValue(s[0]).value;
    var lo := DigitValue(s[1]).value;
    var b: Byte := hi * 16 + lo;
    assert b / 16 == hi && b % 16 == lo;
    b
  }

  lemma LowerHexSuffix(s: string)
    requires |s| >= 2 && LowerHex(s)
    ensures LowerHex(s[2..])
  {
    forall i | 0 <= i < |s[2..]|
      ensures '0' <= s[2..][i] <= '9' || 'a' <= s[2..][i] <= 'f'
    {
      assert s[2..][i] == s[i + 2];
    }
  }

  /** A digest has exactly one 64-character lower-case hexadecimal text. */
  lemma DigestTextUnique(s: string, m: Mac)
    requires |s| == 64 && LowerHex(s) && Decode(s) == m
    ensures s == Encode(m)
  {
    EncodeDecode(s);
  }

  /** Decoding stops at the first pair holding a character that is not
      hexadecimal: nothing from that pair onwards is read. */
  lemma {:induction false} DecodeStopsBefore(s: string, k: nat)
    requires k < |s| && DigitValue(s[k]).None?
    ensures |Decode(s)| <= k / 2
  {
    if |s| >= 2 && DigitValue(s[0]).Some? && DigitValue(s[1]).Some? {
      assert k >= 2;
      assert s[2..][k - 2] == s[k];
      DecodeStopsBefore(s[2..], k - 2);
    }
  }

  /** Text too short to hold 64 hexadecimal characters never decodes to a
      digest-sized buffer. */
  lemma ShortTextIsNotADigest(s: string)
    requires |s| < 64
    ensures |Decode(s)| != 32
  {
  }
}

=== FILE: js.dfy ===
/** The JavaScript value semantics the webhook server relies on: optional
    values, parsed JSON values, truthiness, optional property access,
    `parseInt` and the decimal rendering of `Number.prototype.toString`. */
module Js {

  /** `None` plays the part of JavaScript's `undefined` (and of SQL NULL). */
  datatype Option<+T> = None | Some(value: T)

  /** A value produced by `JSON.parse`. Numbers are restricted to integers;
      an object maps each key to the value `JSON.parse` keeps for it (the
      last one, when a key is repeated). */
  datatype Json =
    | JNull
    | JBool(b: bool)
    | JNumber(n: int)
    | JString(s: string)
    | JArray(items: seq<Json>)
    | JObject(fields: map<string, Json>)

  /** JavaScript truthiness of a possibly-undefined value: `undefined`,
      `null`, `false`, `0` and `""` are falsy, everything else is truthy. */
  predicate Truthy(v: Option<Json>) {
    match v
    case None => false
    case Some(JNull) => false
    case Some(JBool(b)) => b
    case Some(JNumber(n)) => n != 0
    case Some(JString(s)) => s != ""
    case Some(_) => true
  }

  /** Truthiness of a possibly-absent string (a header, a query parameter,
      the configured secret): the empty string counts as absent. */
  predicate Present(s: Option<string>) {
    s.Some? && s.value != ""
  }

  /** Optional chaining `v?.key` for the keys the server reads (`id`,
      `event`, `data`, `commodity_code`, `commodity`, `secret`), none of
      which is an inherited property of strings, numbers or arrays. */
  function Get(v: Option<Json>, key: string): Option<Json> {
    match v
    case Some(JObject(fields)) => if key in fields then Some(fields[key]) else None
    case _ => None
  }

  /** The characters `parseInt` skips before the number (StrWhiteSpaceChar
      of ECMAScript: white space and line terminators). */
  predicate IsWhiteSpace(c: char) {
    || c == '\t' || c == '\n' || c == '\U{000B}' || c == '\U{000C}' || c == '\r'
    || c == ' ' || c == '\U{00A0}' || c == '\U{1680}' || ('\U{2000}' <= c <= '\U{200A}')
    || c == '\U{2028}' || c == '\U{2029}' || c == '\U{202F}' || c == '\U{205F}'
    || c == '\U{3000}' || c == '\U{FEFF}'
  }

  /** The value of a hexadecimal digit (either case); `None` for any other character. */
  function DigitValue(c: char): (d: Option<nat>)
    ensures d.Some? ==> d.value < 16
  {
    if '0' <= c <= '9' then Some(c as nat - '0' as nat)
    else if 'a' <= c <= 'f' then Some(c as nat - 'a' as nat + 10)
    else if 'A' <= c <= 'F' then Some(c as nat - 'A' as nat + 10)
    else None
  }

  predicate IsDigit(c: char, radix: nat) {
    DigitValue(c).Some? && DigitValue(c).value < radix
  }

  predicate AllDigits(s: string, radix: nat) {
    forall i :: 0 <= i < |s| ==> IsDigit(s[i], radix)
  }

  function TrimStart(s: string): (r: string)
    ensures |r| <= |s| && r == s[|s| - |r|..]
    ensures r == [] || !IsWhiteSpace(r[0])
    ensures forall i :: 0 <= i < |s| - |r| ==> IsWhiteSpace(s[i])
  {
    if |s| > 0 && IsWhiteSpace(s[0]) then TrimStart(s[1..]) else s
  }

  /** The longest prefix of `s` made of digits of the given radix. */
  function LeadingDigits(s: string, radix: nat): (r: string)
    ensures |r| <= |s| && r == s[..|r|]
    ensures AllDigits(r, radix)
    ensures |r| < |s| ==> !IsDigit(s[|r|], radix)
  {
    if |s| > 0 && IsDigit(s[0], radix) then [s[0]] + LeadingDigits(s[1..], radix) else []
  }

  /** The number a digit string denotes in the given radix. */
  function Magnitude(ds: string, radix: nat): nat
    requires AllDigits(ds, radix)
  {
    if ds == [] then 0 else Magnitude(ds[..|ds| - 1], radix) * radix + DigitValue(ds[|ds| - 1]).value
  }

  /** `parseInt(s)` without a radix argument: skip leading white space, take
      an optional sign, then read the digits that follow; no digit at all
      gives NaN, modelled as `None`. */
  function ParseInt(s: string): (r: Option<int>)
    ensures r.None? <==> NoDigits(StripSign(TrimStart(s)))
    ensures r.Some? && r.value < 0 ==> TrimStart(s)[0] == '-'
  {
    ParseSigned(TrimStart(s))
  }

  /** `parseInt` once the leading white space is gone. */
  function ParseSigned(t: string): (r: Option<int>)
    ensures r.None? <==> NoDigits(StripSign(t))
    ensures r.Some? && r.value < 0 ==> t[0] == '-'
  {
    match ParseMagnitude(StripSign(t))
    case None => None
    case Some(m) =>
      var v: int := if |t| > 0 && t[0] == '-' then -(m as int) else m;
      Some(v)
  }

  function StripSign(t: string): string {
    if |t| > 0 && (t[0] == '-' || t[0] == '+') then t[1..] else t
  }

  /** `0x` or `0X`: the prefix of a hexadecimal literal. */
  predicate HexPrefixed(u: string) {
    |u| >= 2 && u[0] == '0' && (u[1] == 'x' || u[1] == 'X')
  }

  /** The unsigned text offers no digit to read: it does not start with a
      decimal digit, or it is `0x` not followed by a hexadecimal digit. */
  predicate NoDigits(u: string) {
    || u == []
    || !IsDigit(u[0], 10)
    || (HexPrefixed(u) && (|u| == 2 || !IsDigit(u[2], 16)))
  }

  /** The unsigned part of `parseInt`: radix 16 after a `0x`/`0X` prefix,
      radix 10 otherwise, reading the longest run of digits and ignoring
      whatever follows it. */
  function ParseMagnitude(u: string): (r: Option<nat>)
    ensures r.None? <==> NoDigits(u)
  {
    var hex := HexPrefixed(u);
    var radix := if hex then 16 else 10;
    var z := LeadingDigits(if hex then u[2..] else u, radix);
    if z == [] then None else Some(Magnitude(z, radix))
  }

  /** White space in front of the number is ignored. */
  lemma {:induction false} LeadingBlanksIgnored(blanks: string, s: string)
    requires forall i :: 0 <= i < |blanks| ==> IsWhiteSpace(blanks[i])
    ensures ParseInt(blanks + s) == ParseInt(s)
  {
    TrimStartBlanks(blanks, s);
  }

  lemma {:induction false} TrimStartBlanks(blanks: string, s: string)
    requires forall i :: 0 <= i < |blanks| ==> IsWhiteSpace(blanks[i])
    ensures TrimStart(blanks + s) == TrimStart(s)
  {
    if blanks != [] {
      assert (blanks + s)[1..] == blanks[1..] + s;
      TrimStartBlanks(blanks[1..], s);
    } else {
      assert blanks + s == s;
    }
  }

  function DecimalDigit(d: nat): (c: char)
    requires d < 10
    ensures DigitValue(c) == Some(d)
  {
    ('0' as nat + d) as char
  }

  /** The decimal text of a natural number, as `String(n)` renders it: no
      sign, no leading zero, and denoting `n`. */
  function NatToString(n: nat): (r: string)
    ensures |r| >= 1 && AllDigits(r, 10)
    ensures n > 0 ==> r[0] != '0'
    ensures n == 0 ==> r == "0"
    ensures Magnitude(r, 10) == n
  {
    if n < 10 then [DecimalDigit(n)]
    else
      var prefix := NatToString(n / 10);
      var r := prefix + [DecimalDigit(n % 10)];
      assert r[..|r| - 1] == prefix;
      r
  }

  lemma DigitIsNotBlank(c: char)
    requires IsDigit(c, 10)
    ensures !IsWhiteSpace(c) && c != '-' && c != '+'
  {
  }

  lemma {:induction false} LeadingDigitsOfDigits(ds: string, tail: string, radix: nat)
    requires AllDigits(ds, radix)
    requires tail == [] || !IsDigit(tail[0], radix)
    ensures LeadingDigits(ds + tail, radix) == ds
  {
    if ds != [] {
      assert (ds + tail)[1..] == ds[1..] + tail;
      LeadingDigitsOfDigits(ds[1..], tail, radix);
    } else {
      assert ds + tail == tail;
    }
  }

  /** `parseInt` reads back the decimal text of `n`, whatever non-digit text
      follows it (`parseInt("123abc")` is 123); the one exception, excluded
      here, is `"0"` followed by `x`, which starts a hexadecimal literal. */
  lemma ParseIntOfDecimal(n: nat, tail: string)
    requires tail == [] || !IsDigit(tail[0], 10)
    requires n == 0 ==> tail == [] || (tail[0] != 'x' && tail[0] != 'X')
    ensures ParseInt(NatToString(n) + tail) == Some(n)
  {
    var s := NatToString(n) + tail;
    DecimalMagnitude(n, tail);
    assert IsDigit(s[0], 10) by {
      assert s[0] == NatToString(n)[0];
    }
    DigitIsNotBlank(s[0]);
    UnsignedIsParsedWhole(s);
  }

  /** Text that starts with a digit is read by `parseInt` as it stands. */
  lemma UnsignedIsParsedWhole(s: string)
    requires |s| > 0 && !IsWhiteSpace(s[0]) && s[0] != '-' && s[0] != '+'
    requires ParseMagnitude(s).Some?
    ensures ParseInt(s) == Some(ParseMagnitude(s).value as int)
  {
    assert TrimStart(s) == s;
    assert StripSign(s) == s;
  }

  lemma DecimalMagnitude(n: nat, tail: string)
    requires tail == [] || !IsDigit(tail[0], 10)
    requires n == 0 ==> tail == [] || (tail[0] != 'x' && tail[0] != 'X')
    ensures ParseMagnitude(NatToString(n) + tail) == Some(n)
  {
    var ds := NatToString(n);
    var s := ds + tail;
    assert !HexPrefixed(s) by {
      if n == 0 && |tail| > 0 {
        assert s[1] == tail[0];
      }
    }
    LeadingDigitsOfDigits(ds, tail, 10);
  }

}

=== FILE: sequences.dfy ===
/** Sequence operations the store's read paths are built from: a stable
    sort by a descending integer key (`ORDER BY … DESC`), `LIMIT`/`OFFSET`
    paging, and sums. */
module Sequences {

  ghost predicate SortedDesc<T>(s: seq<T>, key: T -> int) {
    forall i, j :: 0 <= i < j < |s| ==> key(s[i]) >= key(s[j])
  }

  ghost predicate NoDuplicates<T>(s: seq<T>) {
    forall i, j :: 0 <= i < j < |s| ==> s[i] != s[j]
  }

  /** Inserts `x` in front of the first element with a smaller key. */
  function Insert<T>(x: T, s: seq<T>, key: T -> int): (r: seq<T>)
    requires SortedDesc(s, key)
    ensures SortedDesc(r, key)
    ensures multiset(r) == multiset(s) + multiset{x}
    ensures forall y :: y in r ==> y == x || y in s
  {
    if s == [] || key(x) >= key(s[0]) then
      assert forall j :: 0 < j < |s| ==> key(s[0]) >= key(s[j]);
      [x] + s
    else
      var rest := Insert(x, s[1..], key);
      PrependLarger(s, x, rest, key);
      assert s == [s[0]] + s[1..];
      [s[0]] + rest
  }

  lemma PrependLarger<T>(s: seq<T>, x: T, rest: seq<T>, key: T -> int)
    requires SortedDesc(s, key) && s != [] && key(x) < key(s[0])
    requires SortedDesc(rest, key)
    requires forall y :: y in rest ==> y == x || y in s[1..]
    ensures SortedDesc([s[0]] + rest, key)
  {
    var r := [s[0]] + rest;
    forall j | 0 <= j < |rest| ensures key(s[0]) >= key(rest[j]) {
      assert rest[j] in rest;
      if rest[j] != x {
        var k :| 0 <= k < |s[1..]| && s[1..][k] == rest[j];
        assert s[1..][k] == s[k + 1];
      }
    }
    forall i, j | 0 <= i < j < |r| ensures key(r[i]) >= key(r[j]) {
      if i == 0 {
        assert r[j] == rest[j - 1];
      } else {
        assert r[i] == rest[i - 1] && r[j] == rest[j - 1];
      }
    }
  }

  /** Insertion sort, largest key first. */
  function SortDesc<T>(s: seq<T>, key: T -> int): (r: seq<T>)
    ensures SortedDesc(r, key)
    ensures multiset(r) == multiset(s)
  {
    if s == [] then []
    else
      assert s == [s[0]] + s[1..];
      Insert(s[0], SortDesc(s[1..], key), key)
  }

  /** Sorting keeps exactly the elements it was given. */
  lemma SortDescMembers<T>(s: seq<T>, key: T -> int)
    ensures |SortDesc(s, key)| == |s|
    ensures forall x :: x in SortDesc(s, key) <==> x in s
  {
    var r := SortDesc(s, key);
    assert |multiset(r)| == |multiset(s)|;
    forall x ensures x in r <==> x in s {
      assert x in r <==> x in multiset(r);
      assert x in s <==> x in multiset(s);
    }
  }

  function Sum<T>(s: seq<T>, f: T -> int): int {
    if s == [] then 0 else f(s[0]) + Sum(s[1..], f)
  }

  lemma {:induction false} SumInsert<T>(x: T, s: seq<T>, key: T -> int, f: T -> int)
    requires SortedDesc(s, key)
    ensures Sum(Insert(x, s, key), f) == f(x) + Sum(s, f)
  {
    if s == [] || key(x) >= key(s[0]) {
      assert ([x] + s)[1..] == s;
    } else {
      SumInsert(x, s[1..], key, f);
      assert ([s[0]] + Insert(x, s[1..], key))[1..] == Insert(x, s[1..], key);
    }
  }

  /** Sorting does not change a sum. */
  lemma {:induction false} SumSortDesc<T>(s: seq<T>, key: T -> int, f: T -> int)
    ensures Sum(SortDesc(s, key), f) == Sum(s, f)
  {
    if s != [] {
      SumSortDesc(s[1..], key, f);
      SumInsert(s[0], SortDesc(s[1..], key), key, f);
    }
  }

  lemma {:induction false} NoDuplicatesCount<T>(s: seq<T>, x: T)
    requires NoDuplicates(s)
    ensures multiset(s)[x] <= 1
  {
    if s != [] {
      assert s == [s[0]] + s[1..];
      assert NoDuplicates(s[1..]);
      NoDuplicatesCount(s[1..], x);
      if s[0] == x {
        assert x !in s[1..];
      }
    }
  }

  /** A permutation of a sequence without duplicates has none either. */
  lemma PermutationNoDuplicates<T>(a: seq<T>, b: seq<T>)
    requires NoDuplicates(a) && multiset(a) == multiset(b)
    ensures NoDuplicates(b)
  {
    forall i, j | 0 <= i < j < |b| ensures b[i] != b[j] {
      if b[i] == b[j] {
        var x := b[i];
        assert b == b[..j] + b[j..];
        assert x in b[..j] && x in b[j..];
        assert multiset(b)[x] == multiset(b[..j])[x] + multiset(b[j..])[x];
        NoDuplicatesCount(a, x);
        assert false;
      }
    }
  }

  /** `LIMIT limit OFFSET offset`: skip `offset` elements, then keep at most `limit`. */
  function Page<T>(s: seq<T>, limit: nat, offset: nat): (r: seq<T>)
    ensures |r| == if offset >= |s| then 0 else if limit <= |s| - offset then limit else |s| - offset
    ensures forall i :: 0 <= i < |r| ==> r[i] == s[offset + i]
  {
    var rest := if offset <= |s| then s[offset..] else [];
    if limit <= |rest| then rest[..limit] else rest
  }

  /** A page of a sorted sequence is sorted and holds only its elements. */
  lemma PageOfSorted<T>(s: seq<T>, key: T -> int, limit: nat, offset: nat)
    requires SortedDesc(s, key)
    ensures SortedDesc(Page(s, limit, offset), key)
    ensures forall x :: x in Page(s, limit, offset) ==> x in s
  {
    var r := Page(s, limit, offset);
    forall i, j | 0 <= i < j < |r| ensures key(r[i]) >= key(r[j]) {
      assert r[i] == s[offset + i] && r[j] == s[offset + j];
    }
    forall x | x in r ensures x in s {
      var i :| 0 <= i < |r| && r[i] == x;
      assert r[i] == s[offset + i];
    }
  }

  /** Consecutive pages tile the sequence: a page of `a` at `offset`
      followed by a page of `b` right after it is the page of `a + b`. */
  lemma PagesTile<T>(s: seq<T>, a: nat, b: nat, offset: nat)
    ensures Page(s, a, offset) + Page(s, b, offset + a) == Page(s, a + b, offset)
  {
    var left, right, whole := Page(s, a, offset), Page(s, b, offset + a), Page(s, a + b, offset);
    assert |left + right| == |whole|;
    forall i | 0 <= i < |whole| ensures (left + right)[i] == whole[i] {
      if i >= |left| {
        assert (left + right)[i] == right[i - |left|];
      }
    }
  }
}

=== FILE: server.dfy ===
/** The decisions inside the Express handlers: receiving a webhook (parse,
    verify, resolve fields, save, acknowledge), the listing, lookup and clear
    endpoints, and the secret configuration endpoints. The JSON parser, the
    HMAC and SQLite's rendering of a bound number as text are parameters; the
    clock is one reading `clockMs` (milliseconds since the epoch) per request.
    Socket.io fan-out is the list of notices each handler emits. */
module Server {
  import opened Js
  import opened Hex
  import SV = SignatureVerifier
  import opened Sequences
  import opened EventStore

  /** What a handler needs from its platform. */
  datatype Platform = Platform(
    parse: string -> Option<Json>,
    hmac: SV.Hmac,
    numberText: int -> string)

  /** The process state: the event table and the mutable webhook secret. */
  datatype State = State(store: Store, secret: Option<string>)

  /** A configured secret is never the empty string, and the table keeps its constraints. */
  ghost predicate Good(st: State) {
    Valid(st.store) && (st.secret.Some? ==> st.secret.value != "")
  }

  /** Start-up: `process.env.WEBHOOK_SECRET || null`, and an empty table. */
  function Boot(env: Option<string>): (st: State)
    ensures Good(st)
    ensures st.secret.Some? <==> Present(env)
  {
    State(Empty, if Present(env) then env else None)
  }

  /** A message pushed to the connected dashboards (both socket servers get it). */
  datatype Notice =
    | WebhookNotice(id: nat, eventId: Json, eventType: Json, commodity: Json,
                    signatureValid: bool, signatureError: Option<string>, payload: Json)
    | ClearedNotice
    | SecretNotice(configured: bool)

  /** A `POST /webhook` request: the raw body text, the four headers the
      handler reads, and the JSON text of all headers. */
  datatype Delivery = Delivery(
    rawBody: string,
    signature: Option<string>,
    timestamp: Option<string>,
    eventType: Option<string>,
    eventId: Option<string>,
    headersJson: string)

  /** 200 `{status: 'received', eventId}`, 400 `{error: 'Invalid JSON payload'}`,
      or 500 when the handler throws. */
  datatype WebhookReply = Received(eventId: Json) | InvalidJson | ServerError

  function Status(r: WebhookReply): nat {
    match r
    case Received(_) => 200
    case InvalidJson => 400
    case ServerError => 500
  }

  /** `eventId || payload.id || \`local_${Date.now()}\``. `None` when
      `payload.id` throws, which happens only for a `null` payload reached
      after an absent or empty header. */
  function ResolveEventId(header: Option<string>, payload: Json, clockMs: nat): (r: Option<Json>)
    ensures r.Some? ==> Truthy(r)
    ensures r.None? <==> !Present(header) && payload == JNull
    ensures Present(header) ==> r == Some(JString(header.value))
    ensures !Present(header) && payload != JNull && Truthy(Get(Some(payload), "id")) ==>
              r == Get(Some(payload), "id")
    ensures !Present(header) && payload != JNull && !Truthy(Get(Some(payload), "id")) ==>
              r == Some(JString("local_" + NatToString(clockMs)))
  {
    if Present(header) then Some(JString(header.value))
    else if payload == JNull then None
    else if Truthy(Get(Some(payload), "id")) then Get(Some(payload), "id")
    else Some(JString("local_" + NatToString(clockMs)))
  }

  /** `eventType || payload.event || 'unknown'`, throwing like `ResolveEventId`. */
  function ResolveEventType(header: Option<string>, payload: Json): (r: Option<Json>)
    ensures r.Some? ==> Truthy(r)
    ensures r.None? <==> !Present(header) && payload == JNull
    ensures Present(header) ==> r == Some(JString(header.value))
    ensures !Present(header) && payload != JNull && Truthy(Get(Some(payload), "event")) ==>
              r == Get(Some(payload), "event")
    ensures !Present(header) && payload != JNull && !Truthy(Get(Some(payload), "event")) ==>
              r == Some(JString("unknown"))
  {
    if Present(header) then Some(JString(header.value))
    else if payload == JNull then None
    else if Truthy(Get(Some(payload), "event")) then Get(Some(payload), "event")
    else Some(JString("unknown"))
  }

  /** `payload?.data?.commodity_code || payload?.data?.commodity || null`. */
  function ResolveCommodity(payload: Json): (r: Json)
    ensures r == JNull || Truthy(Some(r))
    ensures var data := Get(Some(payload), "data");
            && (Truthy(Get(data, "commodity_code")) ==> r == Get(data, "commodity_code").value)
            && (!Truthy(Get(data, "commodity_code")) && Truthy(Get(data, "commodity")) ==>
                  r == Get(data, "commodity").value)
            && (!Truthy(Get(data, "commodity_code")) && !Truthy(Get(data, "commodity")) ==> r == JNull)
  {
    var data := Get(Some(payload), "data");
    var code := Get(data, "commodity_code");
    var name := Get(data, "commodity");
    if Truthy(code) then code.value else if Truthy(name) then name.value else JNull
  }

  /** A value better-sqlite3 binds as one parameter: null, a string or a number. */
  predicate Scalar(v: Json) {
    v.JNull? || v.JString? || v.JNumber?
  }

  /** The value bound for a scalar in a TEXT column: NULL for null, a
      string as itself, a number as SQLite's text for it. */
  function BindScalar(v: Json, numberText: int -> string): (r: Option<string>)
    requires Scalar(v)
    ensures r.None? <==> v.JNull?
    ensures v.JString? ==> r == Some(v.s)
  {
    match v
    case JString(s) => Some(s)
    case JNumber(n) => Some(numberText(n))
    case JNull => None
  }

  function BindItems(items: seq<Json>, numberText: int -> string): (r: Option<seq<Option<string>>>)
    ensures r.Some? <==> forall i :: 0 <= i < |items| ==> Scalar(items[i])
    ensures r.Some? ==> |r.value| == |items|
    ensures r.Some? ==> forall i :: 0 <= i < |items| ==> r.value[i] == BindScalar(items[i], numberText)
  {
    if items == [] then Some([])
    else if !Scalar(items[0]) then None
    else
      match BindItems(items[1..], numberText)
      case None =>
        assert !Scalar(items[1..][0]) || exists i :: 0 <= i < |items[1..]| && !Scalar(items[1..][i]);
        None
      case Some(rest) => Some([BindScalar(items[0], numberText)] + rest)
  }

  /** What one argument of `stmt.run` contributes to the statement's
      parameters: a scalar binds one value; an array is spread into one
      value per element, each of which must be a scalar; a boolean, an
      object or a nested array is refused with an exception (`None`). */
  function Spread(v: Json, numberText: int -> string): (r: Option<seq<Option<string>>>)
    ensures r.Some? <==> Scalar(v) || (v.JArray? && forall i :: 0 <= i < |v.items| ==> Scalar(v.items[i]))
    ensures r.Some? && Scalar(v) ==> r.value == [BindScalar(v, numberText)]
    ensures r.Some? && v.JArray? ==>
              && |r.value| == |v.items|
              && forall i :: 0 <= i < |v.items| ==> r.value[i] == BindScalar(v.items[i], numberText)
  {
    if Scalar(v) then Some([BindScalar(v, numberText)])
    else if v.JArray? then BindItems(v.items, numberText)
    else None
  }

  /** An array of strings and nulls spreads into exactly its own values. */
  lemma SpreadArray(items: seq<Json>, values: seq<Option<string>>, numberText: int -> string)
    requires |items| == |values|
    requires forall i :: 0 <= i < |items| ==>
               (items[i].JNull? && values[i].None?) || (items[i].JString? && values[i] == Some(items[i].s))
    ensures Spread(JArray(items), numberText) == Some(values)
  {
    forall i | 0 <= i < |items|
      ensures Scalar(JArray(items).items[i])
    {
    }
    var r := Spread(JArray(items), numberText);
    forall i | 0 <= i < |items|
      ensures r.value[i] == values[i]
    {
      assert r.value[i] == BindScalar(items[i], numberText);
    }
    assert r.value == values;
  }

  /** The first three columns of the insert: `event_id`, `event_type`,
      `commodity`. */
  datatype Columns = Columns(eventId: Option<string>, eventType: string, commodity: Option<string>)

  /** `stmt.run` gets the resolved id, type and commodity followed by six
      scalar arguments, for nine placeholders. After spreading, the first
      three arguments must supply exactly three values, which fill the first
      three columns in order; any other count throws. `event_type` is NOT
      NULL without a default, so a NULL there aborts the insert. */
  function LeadingColumns(id: Json, eventType: Json, commodity: Json, numberText: int -> string): (r: Option<Columns>)
    ensures r.Some? <==>
              && Spread(id, numberText).Some? && Spread(eventType, numberText).Some? && Spread(commodity, numberText).Some?
              && var vals := Spread(id, numberText).value + Spread(eventType, numberText).value
                             + Spread(commodity, numberText).value;
                 |vals| == 3 && vals[1].Some?
    ensures r.Some? ==>
              var vals := Spread(id, numberText).value + Spread(eventType, numberText).value
                          + Spread(commodity, numberText).value;
              r.value == Columns(vals[0], vals[1].value, vals[2])
  {
    match (Spread(id, numberText), Spread(eventType, numberText), Spread(commodity, numberText))
    case (Some(a), Some(b), Some(c)) =>
      var vals := a + b + c;
      if |vals| == 3 && vals[1].Some? then Some(Columns(vals[0], vals[1].value, vals[2])) else None
    case _ => None
  }

  /** With scalar values every argument lands in its own column. */
  lemma ScalarColumns(id: Json, eventType: Json, commodity: Json, numberText: int -> string)
    requires Scalar(id) && Scalar(eventType) && Scalar(commodity) && !eventType.JNull?
    ensures LeadingColumns(id, eventType, commodity, numberText)
         == Some(Columns(BindScalar(id, numberText), BindScalar(eventType, numberText).value,
                         BindScalar(commodity, numberText)))
  {
    var vals := [BindScalar(id, numberText)] + [BindScalar(eventType, numberText)] + [BindScalar(commodity, numberText)];
    assert vals[0] == BindScalar(id, numberText) && vals[1] == BindScalar(eventType, numberText);
    assert vals[2] == BindScalar(commodity, numberText);
  }

  /** The `signature_error` column: the verifier's error text, or NULL. */
  function ErrorText(v: SV.Verification): Option<string> {
    match v.error
    case None => None
    case Some(f) => Some(SV.Message(f))
  }

  /** The verification a delivery gets: the raw body, the two signature
      headers and the secret current at the time of the call. */
  function VerifyDelivery(st: State, d: Delivery, clockMs: nat, p: Platform): SV.Verification {
    SV.Verify(d.rawBody, d.signature, d.timestamp, st.secret, clockMs / 1000, p.hmac)
  }

  /** Whether the handler gets through to its 200 reply: the body parses,
      the id and type resolve without throwing, and the insert accepts its
      arguments. None of this depends on the state. */
  predicate Accepted(d: Delivery, clockMs: nat, p: Platform) {
    && p.parse(d.rawBody).Some?
    && var payload := p.parse(d.rawBody).value;
       && ResolveEventId(d.eventId, payload, clockMs).Some?
       && ResolveEventType(d.eventType, payload).Some?
       && LeadingColumns(ResolveEventId(d.eventId, payload, clockMs).value,
                         ResolveEventType(d.eventType, payload).value,
                         ResolveCommodity(payload), p.numberText).Some?
  }

  /** The row the handler asks the store to save for an accepted delivery. */
  function Stored(st: State, d: Delivery, clockMs: nat, p: Platform): Event
    requires Accepted(d, clockMs, p)
  {
    var payload := p.parse(d.rawBody).value;
    var cols := LeadingColumns(ResolveEventId(d.eventId, payload, clockMs).value,
                               ResolveEventType(d.eventType, payload).value,
                               ResolveCommodity(payload), p.numberText).value;
    var v := VerifyDelivery(st, d, clockMs, p);
    Event(cols.eventId, cols.eventType, cols.commodity, d.rawBody, d.headersJson,
          d.signature, d.timestamp, v.valid, ErrorText(v))
  }

  /** The handler of `POST /webhook`. */
  function ReceiveWebhook(st: State, d: Delivery, clockMs: nat, p: Platform): (out: (WebhookReply, State, seq<Notice>))
    requires Valid(st.store)
    ensures p.parse(d.rawBody).None? ==> out == (InvalidJson, st, [])
    ensures p.parse(d.rawBody).Some? ==> !out.0.InvalidJson?
    ensures out.0.Received? <==> Accepted(d, clockMs, p)
    ensures out.1.secret == st.secret
    ensures Valid(out.1.store)
    ensures !out.0.Received? ==> out.1 == st && out.2 == []
    ensures out.0.Received? ==>
              var payload := p.parse(d.rawBody).value;
              var id := ResolveEventId(d.eventId, payload, clockMs).value;
              var v := VerifyDelivery(st, d, clockMs, p);
              var e := Stored(st, d, clockMs, p);
              && out.0 == Received(id)
              && Truthy(Some(id))
              && out.1.store.rows != []
              && var row := Newest(out.1.store.rows);
                 && row.id == out.1.store.lastId
                 && row.eventId == e.eventId
                 && row.eventType == e.eventType
                 && row.commodity == e.commodity
                 && row.payload == d.rawBody
                 && row.headers == d.headersJson
                 && row.signature == d.signature
                 && row.signatureTimestamp == d.timestamp
                 && (row.signatureValid == 1 <==> v.valid)
                 && row.signatureError == ErrorText(v)
                 && row.receivedAt == clockMs / 1000
                 && (forall r0 :: r0 in st.store.rows && !Replaces(e, r0) ==> r0 in out.1.store.rows)
                 && (forall r :: r in out.1.store.rows && r != row ==> r in st.store.rows && !Replaces(e, r))
                 && |out.1.store.rows| <= |st.store.rows| + 1
                 && out.2 == [WebhookNotice(row.id, id, ResolveEventType(d.eventType, payload).value,
                                            ResolveCommodity(payload), v.valid, ErrorText(v), payload)]
  {
    if !Accepted(d, clockMs, p) then
      if p.parse(d.rawBody).None? then (InvalidJson, st, []) else (ServerError, st, [])
    else
      var payload := p.parse(d.rawBody).value;
      var id := ResolveEventId(d.eventId, payload, clockMs).value;
      var eventType := ResolveEventType(d.eventType, payload).value;
      var v := VerifyDelivery(st, d, clockMs, p);
      var e := Stored(st, d, clockMs, p);
      var store := Save(st.store, e, clockMs / 1000);
      (Received(id), st.(store := store),
       [WebhookNotice(store.lastId, id, eventType, ResolveCommodity(payload), v.valid, ErrorText(v), payload)])
  }

  /** The reply does not depend on the secret or on the signature headers:
      authentication failures are recorded, never rejected. */
  lemma ReplyIgnoresAuthentication(store: Store, s1: Option<string>, s2: Option<string>,
                                   d: Delivery, sig: Option<string>, ts: Option<string>,
                                   clockMs: nat, p: Platform)
    requires Valid(store)
    ensures var d2 := d.(signature := sig, timestamp := ts);
            && ReceiveWebhook(State(store, s1), d, clockMs, p).0 == ReceiveWebhook(State(store, s2), d2, clockMs, p).0
            && |ReceiveWebhook(State(store, s1), d, clockMs, p).1.store.rows|
               == |ReceiveWebhook(State(store, s2), d2, clockMs, p).1.store.rows|
  {
  }

  /** A possibly absent JSON value that binds as a single scalar. */
  predicate Bindable(v: Option<Json>) {
    v.None? || Scalar(v.value)
  }

  /** Any parseable object body whose `id`, `event`, `data.commodity_code`
      and `data.commodity` are strings, numbers, null or absent is stored
      and acknowledged with 200, whatever the verification says. */
  lemma WellFormedBodyIsStored(st: State, d: Delivery, clockMs: nat, p: Platform, fields: map<string, Json>)
    requires Valid(st.store)
    requires p.parse(d.rawBody) == Some(JObject(fields))
    requires Bindable(Get(Some(JObject(fields)), "id")) && Bindable(Get(Some(JObject(fields)), "event"))
    requires var data := Get(Some(JObject(fields)), "data");
             Bindable(Get(data, "commodity_code")) && Bindable(Get(data, "commodity"))
    ensures ReceiveWebhook(st, d, clockMs, p).0.Received?
    ensures Status(ReceiveWebhook(st, d, clockMs, p).0) == 200
  {
    var payload := JObject(fields);
    ScalarColumns(ResolveEventId(d.eventId, payload, clockMs).value,
                  ResolveEventType(d.eventType, payload).value,
                  ResolveCommodity(payload), p.numberText);
  }

  /** When the resolved id, type and commodity are scalars, the stored row
      carries exactly the resolved values: the header or body fallback
      chosen by `ResolveEventId`, `ResolveEventType` and `ResolveCommodity`. */
  lemma ResolvedScalarsStored(st: State, d: Delivery, clockMs: nat, p: Platform, payload: Json)
    requires Valid(st.store)
    requires p.parse(d.rawBody) == Some(payload)
    requires ResolveEventId(d.eventId, payload, clockMs).Some? && ResolveEventType(d.eventType, payload).Some?
    requires Scalar(ResolveEventId(d.eventId, payload, clockMs).value)
    requires Scalar(ResolveEventType(d.eventType, payload).value)
    requires Scalar(ResolveCommodity(payload))
    ensures var out := ReceiveWebhook(st, d, clockMs, p);
            && out.0.Received?
            && out.1.store.rows != []
            && var row := Newest(out.1.store.rows);
               && row.eventId == BindScalar(ResolveEventId(d.eventId, payload, clockMs).value, p.numberText)
               && Some(row.eventType) == BindScalar(ResolveEventType(d.eventType, payload).value, p.numberText)
               && row.commodity == BindScalar(ResolveCommodity(payload), p.numberText)
  {
    ScalarColumns(ResolveEventId(d.eventId, payload, clockMs).value,
                  ResolveEventType(d.eventType, payload).value,
                  ResolveCommodity(payload), p.numberText);
  }

  /** A `null` body is stored only when both the event id and the event
      type headers are present; otherwise `payload.id` or `payload.event`
      throws and nothing is stored. */
  lemma NullBody(st: State, d: Delivery, clockMs: nat, p: Platform)
    requires Valid(st.store)
    requires p.parse(d.rawBody) == Some(JNull)
    ensures ReceiveWebhook(st, d, clockMs, p).0.Received? <==> Present(d.eventId) && Present(d.eventType)
  {
    if Present(d.eventId) && Present(d.eventType) {
      ScalarColumns(JString(d.eventId.value), JString(d.eventType.value), JNull, p.numberText);
    }
  }

  /** The acknowledgment carries the id the event was stored under: the
      header when present, else the body's `id` when truthy, else
      `local_<milliseconds>`. */
  lemma AcknowledgedId(st: State, d: Delivery, clockMs: nat, p: Platform, payload: Json)
    requires Valid(st.store)
    requires p.parse(d.rawBody) == Some(payload)
    requires ReceiveWebhook(st, d, clockMs, p).0.Received?
    ensures var id := ReceiveWebhook(st, d, clockMs, p).0.eventId;
            && (Present(d.eventId) ==> id == JString(d.eventId.value))
            && (!Present(d.eventId) && Truthy(Get(Some(payload), "id")) ==> id == Get(Some(payload), "id").value)
            && (!Present(d.eventId) && !Truthy(Get(Some(payload), "id")) ==>
                  id == JString("local_" + NatToString(clockMs)))
  {
  }

  /** A delivery like `{"id":"e1","event":"price.updated",…}` with no secret
      configured is stored as unverified with the no-secret error, and is
      still acknowledged with 200 and its id. */
  lemma UnsignedDeliveryScenario(store: Store, d: Delivery, clockMs: nat, p: Platform, fields: map<string, Json>)
    requires Valid(store)
    requires p.parse(d.rawBody) == Some(JObject(fields))
    requires !Present(d.eventId) && !Present(d.eventType)
    requires "id" in fields && fields["id"] == JString("e1")
    requires "event" in fields && fields["event"] == JString("price.updated")
    requires "data" !in fields
    ensures var out := ReceiveWebhook(State(store, None), d, clockMs, p);
            && out.0 == Received(JString("e1"))
            && out.1.store.rows != []
            && var row := Newest(out.1.store.rows);
               row.eventId == Some("e1") && row.eventType == "price.updated" && row.commodity == None &&
               row.signatureValid == 0 && row.signatureError == Some("No secret configured")
  {
    ScalarColumns(JString("e1"), JString("price.updated"), JNull, p.numberText);
  }

  /** better-sqlite3 spreads an array argument into consecutive parameters:
      a body `{"id":["e1"]}` without an event-id header is stored under
      `event_id` "e1" and acknowledged with the array itself. */
  lemma SingletonArrayIdIsSpread(st: State, d: Delivery, clockMs: nat, p: Platform, fields: map<string, Json>)
    requires Valid(st.store)
    requires p.parse(d.rawBody) == Some(JObject(fields))
    requires !Present(d.eventId) && Present(d.eventType)
    requires "id" in fields && fields["id"] == JArray([JString("e1")])
    requires "data" !in fields
    ensures var out := ReceiveWebhook(st, d, clockMs, p);
            && out.0 == Received(JArray([JString("e1")]))
            && out.1.store.rows != []
            && Newest(out.1.store.rows).eventId == Some("e1")
            && Newest(out.1.store.rows).eventType == d.eventType.value
  {
    var vals := [Some("e1")] + [Some(d.eventType.value)] + [None];
    SpreadArray([JString("e1")], [Some("e1")], p.numberText);
    assert LeadingColumns(JArray([JString("e1")]), JString(d.eventType.value), JNull, p.numberText)
        == Some(Columns(Some("e1"), d.eventType.value, None));
  }

  /** Spreading shifts columns: with no headers, `{"id":["a","b"],
      "data":{"commodity_code":[]}}` supplies "a" and "b" for the id and the
      empty array nothing, so `event_type` receives "b" and `commodity`
      receives the fallback type "unknown". */
  lemma ArraysShiftColumns(st: State, d: Delivery, clockMs: nat, p: Platform, fields: map<string, Json>)
    requires Valid(st.store)
    requires p.parse(d.rawBody) == Some(JObject(fields))
    requires !Present(d.eventId) && !Present(d.eventType)
    requires "id" in fields && fields["id"] == JArray([JString("a"), JString("b")])
    requires "event" !in fields
    requires "data" in fields && fields["data"] == JObject(map["commodity_code" := JArray([])])
    ensures var out := ReceiveWebhook(st, d, clockMs, p);
            && out.0 == Received(JArray([JString("a"), JString("b")]))
            && out.1.store.rows != []
            && Newest(out.1.store.rows).eventId == Some("a")
            && Newest(out.1.store.rows).eventType == "b"
            && Newest(out.1.store.rows).commodity == Some("unknown")
  {
    var payload := JObject(fields);
    assert ResolveCommodity(payload) == JArray([]);
    SpreadArray([JString("a"), JString("b")], [Some("a"), Some("b")], p.numberText);
    SpreadArray([], [], p.numberText);
    var vals := [Some("a"), Some("b")] + [Some("unknown")] + [];
    assert vals == [Some("a"), Some("b"), Some("unknown")];
    assert LeadingColumns(JArray([JString("a"), JString("b")]), JString("unknown"), JArray([]), p.numberText)
        == Some(Columns(Some("a"), "b", Some("unknown")));
  }

  /** Too many spread values make better-sqlite3 throw: a two-element `id`
      array alongside a scalar type and a null commodity gives 500 and stores
      nothing. */
  lemma SurplusValuesRejected(st: State, d: Delivery, clockMs: nat, p: Platform, fields: map<string, Json>)
    requires Valid(st.store)
    requires p.parse(d.rawBody) == Some(JObject(fields))
    requires !Present(d.eventId) && Present(d.eventType)
    requires "id" in fields && fields["id"] == JArray([JString("a"), JString("b")])
    requires "data" !in fields
    ensures ReceiveWebhook(st, d, clockMs, p) == (ServerError, st, [])
  {
    SpreadArray([JString("a"), JString("b")], [Some("a"), Some("b")], p.numberText);
  }

  /** A spread NULL may land in `event_id`, which is nullable: such a row
      replaces nothing, so repeating the delivery adds another row. */
  lemma NullIdIsStoredUnkeyed(st: State, d: Delivery, clockMs: nat, p: Platform, fields: map<string, Json>)
    requires Valid(st.store)
    requires p.parse(d.rawBody) == Some(JObject(fields))
    requires !Present(d.eventId) && Present(d.eventType)
    requires "id" in fields && fields["id"] == JArray([JNull])
    requires "data" !in fields
    ensures var out := ReceiveWebhook(st, d, clockMs, p);
            && out.0.Received?
            && |out.1.store.rows| == |st.store.rows| + 1
            && Newest(out.1.store.rows).eventId == None
  {
    SpreadArray([JNull], [None], p.numberText);
    assert LeadingColumns(JArray([JNull]), JString(d.eventType.value), JNull, p.numberText)
        == Some(Columns(None, d.eventType.value, None));
  }

  /** The query string of `GET /api/events`. */
  datatype EventsRequest = EventsRequest(
    eventType: Option<string>,
    commodity: Option<string>,
    limit: Option<string>,
    offset: Option<string>)

  const DefaultLimit: nat := 100

  /** `parseInt` of a paging parameter, or the default when it is absent;
      `None` when it parses to NaN. */
  function PageParam(v: Option<string>, default: nat): Option<int> {
    match v
    case None => Some(default)
    case Some(s) => ParseInt(s)
  }

  /** SQLite's reading of a bound `LIMIT`: a negative limit means no bound,
      which for a table of `size` rows is the same as a limit of `size`. */
  function LimitOf(n: int, size: nat): nat {
    if n < 0 then size else n
  }

  /** SQLite's reading of a bound `OFFSET`: a negative offset counts as zero. */
  function OffsetOf(n: int): nat {
    if n < 0 then 0 else n
  }

  /** `GET /api/events`: `limit` defaults to 100 and `offset` to 0; `None`
      when either parameter is NaN, whose binding is not modelled. */
  function ListEvents(st: Store, req: EventsRequest): (r: Option<Listing>)
    ensures req.limit.None? && req.offset.None? ==>
              r == Some(GetEvents(st, Query(req.eventType, req.commodity, DefaultLimit, 0)))
    ensures r.Some? <==> PageParam(req.limit, DefaultLimit).Some? && PageParam(req.offset, 0).Some?
    ensures r.Some? ==> r.value.total == |Matching(st.rows, Query(req.eventType, req.commodity, 0, 0))|
    ensures r.Some? && PageParam(req.limit, DefaultLimit).value < 0 ==>
              |r.value.events| == if r.value.total <= OffsetOf(PageParam(req.offset, 0).value) then 0
                                  else r.value.total - OffsetOf(PageParam(req.offset, 0).value)
    ensures r.Some? && PageParam(req.limit, DefaultLimit).value >= 0 ==>
              |r.value.events| <= PageParam(req.limit, DefaultLimit).value
    ensures r.Some? && req.offset.None? && PageParam(req.limit, DefaultLimit).value >= 0 ==>
              |r.value.events| == Min(PageParam(req.limit, DefaultLimit).value, r.value.total)
  {
    match (PageParam(req.limit, DefaultLimit), PageParam(req.offset, 0))
    case (Some(l), Some(o)) =>
      var q := Query(req.eventType, req.commodity, LimitOf(l, |st.rows|), OffsetOf(o));
      SameFiltersSameRows(st.rows, q, q.(limit := 0, offset := 0));
      assert |Matching(st.rows, q)| <= |st.rows| by {
        CountMatchingSize(st.rows, q);
        CountMatchingBound(st.rows, q);
      }
      Some(GetEvents(st, q))
    case _ => None
  }

  lemma {:induction false} CountMatchingBound(rows: seq<Row>, q: Query)
    ensures CountMatching(rows, q) <= |rows|
  {
    if rows != [] {
      CountMatchingBound(rows[1..], q);
    }
  }

  /** Each paging parameter is defaulted on its own: an absent `limit`
      means 100 and an absent `offset` means 0, and decimal text is used
      as given. */
  lemma ListEventsDecimal(st: Store, req: EventsRequest, limit: nat, offset: nat)
    requires (req.limit.None? && limit == DefaultLimit) || req.limit == Some(NatToString(limit))
    requires (req.offset.None? && offset == 0) || req.offset == Some(NatToString(offset))
    ensures ListEvents(st, req) == Some(GetEvents(st, Query(req.eventType, req.commodity, limit, offset)))
  {
    DecimalPageParam(limit, DefaultLimit);
    DecimalPageParam(offset, 0);
  }

  /** The command-line client's `list` asks for `?limit=20` with no
      offset: the 20 newest matching events. */
  lemma ListTwentyNewest(st: Store, eventType: Option<string>, commodity: Option<string>)
    ensures ListEvents(st, EventsRequest(eventType, commodity, Some("20"), None))
         == Some(GetEvents(st, Query(eventType, commodity, 20, 0)))
  {
    assert NatToString(20) == "20";
    ListEventsDecimal(st, EventsRequest(eventType, commodity, Some("20"), None), 20, 0);
  }

  lemma DecimalPageParam(n: nat, default: nat)
    ensures PageParam(Some(NatToString(n)), default) == Some(n)
  {
    ParseIntOfDecimal(n, []);
    assert NatToString(n) + [] == NatToString(n);
  }

  /** A negative limit with no offset lists every matching row. */
  lemma NegativeLimitListsAllMatches(st: Store, req: EventsRequest)
    requires req.offset.None? && req.limit.Some? && ParseInt(req.limit.value).Some?
    requires ParseInt(req.limit.value).value < 0
    ensures var r := ListEvents(st, req);
            && r.Some?
            && multiset(r.value.events) == multiset(Matching(st.rows, Query(req.eventType, req.commodity, 0, 0)))
  {
    var q := Query(req.eventType, req.commodity, |st.rows|, 0);
    SameFiltersSameRows(st.rows, q, q.(limit := 0, offset := 0));
    CountMatchingSize(st.rows, q);
    CountMatchingBound(st.rows, q);
  }

  /** A limit that is not a number (`?limit=all`) makes the request
      unanswerable in this model rather than falling back to the default:
      the default applies only when the parameter is absent. */
  lemma NaNLimitIsNotDefaulted(st: Store, req: EventsRequest)
    requires req.limit.Some? && ParseInt(req.limit.value).None?
    ensures ListEvents(st, req).None?
  {
  }

  /** `req.params.id` compared with the integer `id` column: a string of
      decimal digits stands for the number it denotes. */
  function RowIdOf(param: string): Option<nat> {
    if param != [] && AllDigits(param, 10) then Some(Magnitude(param, 10)) else None
  }

  datatype EventReply = Found(row: Row) | NotFound

  /** `GET /api/events/:id`: the row, or 404 `{error: 'Event not found'}`. */
  function GetEvent(st: Store, param: string): (r: EventReply)
    ensures r.Found? ==> r.row in st.rows && RowIdOf(param) == Some(r.row.id)
    ensures r.NotFound? <==> forall row :: row in st.rows ==> RowIdOf(param) != Some(row.id)
  {
    match RowIdOf(param)
    case None => NotFound
    case Some(id) =>
      match GetById(st, id)
      case Some(row) => Found(row)
      case None => NotFound
  }

  /** Every stored row is found under the decimal text of its id. */
  lemma GetEventByDecimalId(st: Store, row: Row)
    requires Valid(st) && row in st.rows
    ensures GetEvent(st, NatToString(row.id)) == Found(row)
  {
    GetByIdFindsRow(st, row);
  }

  /** `GET /api/stats`. */
  function Stats(st: Store): (r: seq<TypeStats>)
    ensures SortedDesc(r, EntryCount)
    ensures forall i, j :: 0 <= i < j < |r| ==> r[i].eventType != r[j].eventType
    ensures forall row :: row in st.rows ==> exists e :: e in r && e.eventType == row.eventType
    ensures forall e :: e in r ==> e.count == CountType(st.rows, e.eventType) && e.count > 0
    ensures forall e :: e in r ==>
              e.validSignatures == CountType(ValidRows(st.rows), e.eventType) && e.validSignatures <= e.count
    ensures forall e :: e in r ==>
              && (exists row :: row in st.rows && row.eventType == e.eventType && row.receivedAt == e.lastReceived)
              && (forall row :: row in st.rows && row.eventType == e.eventType ==> row.receivedAt <= e.lastReceived)
    ensures Sum(r, EntryCount) == |st.rows|
  {
    GetStats(st)
  }

  /** Each stats entry counts what `GET /api/events?type=<its type>` reports
      as the total. */
  lemma StatsMatchEventsListing(st: Store, e: TypeStats)
    requires e in Stats(st) && e.eventType != ""
    ensures var listing := ListEvents(st, EventsRequest(Some(e.eventType), None, None, None));
            listing.Some? && listing.value.total == e.count
  {
    TypeListingTotal(st, e.eventType);
  }

  lemma TypeListingTotal(st: Store, t: string)
    requires t != ""
    ensures var listing := ListEvents(st, EventsRequest(Some(t), None, None, None));
            listing.Some? && listing.value.total == CountType(st.rows, t)
  {
    TypeCountIsListingTotal(st.rows, t, 0, 0);
  }

  /** `DELETE /api/events`: clear the table, tell the dashboards. */
  function ClearEvents(st: State): (out: (State, seq<Notice>))
    requires Good(st)
    ensures Good(out.0)
    ensures out.0.secret == st.secret
    ensures out.0.store.rows == [] && out.0.store.lastId == st.store.lastId
    ensures out.1 == [ClearedNotice]
  {
    (st.(store := Clear(st.store)), [ClearedNotice])
  }

  /** The number of UTF-16 code units of a string: JavaScript's `length`. */
  function Utf16Length(s: string): (n: nat)
    ensures |s| <= n <= 2 * |s|
  {
    if s == [] then 0 else (if s[0] as int > 0xFFFF then 2 else 1) + Utf16Length(s[1..])
  }

  /** Code units add up over concatenation. */
  lemma {:induction false} Utf16Additive(a: string, b: string)
    ensures Utf16Length(a + b) == Utf16Length(a) + Utf16Length(b)
  {
    if a != [] {
      assert (a + b)[0] == a[0] && (a + b)[1..] == a[1..] + b;
      Utf16Additive(a[1..], b);
    } else {
      assert a + b == b;
    }
  }

  /** A string of Basic Multilingual Plane characters has one code unit per character. */
  lemma {:induction false} Utf16Bmp(s: string)
    requires forall i :: 0 <= i < |s| ==> s[i] as int <= 0xFFFF
    ensures Utf16Length(s) == |s|
  {
    if s != [] {
      assert forall i :: 0 <= i < |s[1..]| ==> s[1..][i] == s[i + 1];
      Utf16Bmp(s[1..]);
    }
  }

  /** A string of characters beyond U+FFFF has two code units (a surrogate
      pair) per character. */
  lemma {:induction false} Utf16Astral(s: string)
    requires forall i :: 0 <= i < |s| ==> s[i] as int > 0xFFFF
    ensures Utf16Length(s) == 2 * |s|
  {
    if s != [] {
      assert forall i :: 0 <= i < |s[1..]| ==> s[1..][i] == s[i + 1];
      Utf16Astral(s[1..]);
    }
  }

  /** Eight emoji are sixteen code units, so they make an acceptable secret;
      eight letters do not. */
  lemma EmojiSecretAccepted(st: State)
    requires Good(st)
    ensures SetSecret(st, Some(JString(seq(8, _ => '\U{1F600}')))).0.SecretSaved?
    ensures SetSecret(st, Some(JString(seq(8, _ => 'a')))).0.SecretRejected?
  {
    Utf16Astral(seq(8, _ => '\U{1F600}'));
    Utf16Bmp(seq(8, _ => 'a'));
  }

  function Min(a: nat, b: nat): nat {
    if a <= b then a else b
  }

  /** `${s.slice(0, 4)}...${s.slice(-4)}`. */
  function Preview(s: string): (r: string)
    ensures |s| >= 4 ==> r == s[..4] + "..." + s[|s| - 4..]
    ensures |s| < 4 ==> r == s + "..." + s
  {
    var k := Min(4, |s|);
    s[..k] + "..." + s[|s| - k..]
  }

  /** The preview of a secret of at least eight characters shows eleven
      characters and depends only on its first four and last four: the rest
      of the secret is never revealed. */
  lemma PreviewHidesMiddle(s1: string, s2: string)
    requires |s1| >= 8 && |s2| >= 8
    requires s1[..4] == s2[..4] && s1[|s1| - 4..] == s2[|s2| - 4..]
    ensures Preview(s1) == Preview(s2)
    ensures |Preview(s1)| == 11
  {
  }

  datatype SecretStatus = SecretStatus(configured: bool, preview: Option<string>)

  /** `GET /api/secret`. */
  function GetSecret(st: State): (r: SecretStatus)
    ensures r.configured <==> Present(st.secret)
    ensures r.preview.Some? <==> r.configured
    ensures r.configured ==> r.preview == Some(Preview(st.secret.value))
  {
    if Present(st.secret) then SecretStatus(true, Some(Preview(st.secret.value)))
    else SecretStatus(false, None)
  }

  const MinSecretLength: nat := 16

  datatype SecretReply = SecretSaved(preview: string) | SecretRejected(error: string)

  /** `POST /api/secret` with the body's `secret` field. */
  function SetSecret(st: State, field: Option<Json>): (out: (SecretReply, State, seq<Notice>))
    requires Good(st)
    ensures Good(out.1)
    ensures out.1.store == st.store
    ensures out.0.SecretSaved? <==>
              field.Some? && field.value.JString? && Utf16Length(field.value.s) >= MinSecretLength
    ensures out.0.SecretSaved? ==>
              && out.1.secret == Some(field.value.s)
              && out.0.preview == Preview(field.value.s)
              && out.2 == [SecretNotice(true)]
    ensures out.0.SecretRejected? ==> out.1 == st && out.2 == []
  {
    if !Truthy(field) || !field.value.JString? then
      (SecretRejected("Secret is required and must be a string"), st, [])
    else if Utf16Length(field.value.s) < MinSecretLength then
      (SecretRejected("Secret must be at least 16 characters"), st, [])
    else
      (SecretSaved(Preview(field.value.s)), st.(secret := Some(field.value.s)), [SecretNotice(true)])
  }

  /** Each rejection has its own message: a missing, empty or non-string
      secret is refused before its length is looked at. */
  lemma SecretRejections(st: State, field: Option<Json>)
    requires Good(st)
    ensures var reply := SetSecret(st, field).0;
            && (!Truthy(field) || !field.value.JString? ==>
                  reply == SecretRejected("Secret is required and must be a string"))
            && (Truthy(field) && field.value.JString? && Utf16Length(field.value.s) < MinSecretLength ==>
                  reply == SecretRejected("Secret must be at least 16 characters"))
  {
  }

  /** A newly set secret takes effect for the very next delivery. */
  lemma SecretTakesEffect(st: State, secret: string, d: Delivery, clockMs: nat, p: Platform)
    requires Good(st)
    requires SetSecret(st, Some(JString(secret))).0.SecretSaved?
    ensures var st' := SetSecret(st, Some(JString(secret))).1;
            VerifyDelivery(st', d, clockMs, p).error != Some(SV.NoSecret)
  {
  }

  /** `DELETE /api/secret`. */
  function DeleteSecret(st: State): (out: (State, seq<Notice>))
    requires Good(st)
    ensures Good(out.0)
    ensures out.0.secret == None && out.0.store == st.store
    ensures !GetSecret(out.0).configured
    ensures out.1 == [SecretNotice(false)]
  {
    (st.(secret := None), [SecretNotice(false)])
  }

  /** After the secret is cleared every delivery is stored as unverified. */
  lemma ClearedSecretMarksUnverified(st: State, d: Delivery, clockMs: nat, p: Platform)
    requires Good(st)
    ensures var v := VerifyDelivery(DeleteSecret(st).0, d, clockMs, p);
            !v.valid && ErrorText(v) == Some("No secret configured")
  {
  }

  /** Every handler keeps the state's invariant. */
  lemma HandlersKeepGood(st: State, d: Delivery, clockMs: nat, p: Platform, field: Option<Json>)
    requires Good(st)
    ensures Good(ReceiveWebhook(st, d, clockMs, p).1)
    ensures Good(ClearEvents(st).0)
    ensures Good(SetSecret(st, field).1)
    ensures Good(DeleteSecret(st).0)
  {
  }
}

=== FILE: signature_verifier.dfy ===
/** Webhook signature verification: a short-circuit classifier over the
    configured secret, the signature and timestamp headers, a 300-second
    replay window and an HMAC-SHA256 over `"<raw body>.<timestamp>"`, plus
    the matching signer. The HMAC (RFC 2104 over SHA-256) is a parameter:
    any function from (key, message) to a 32-byte digest. The clock is the
    parameter `now`, in Unix seconds. */
module SignatureVerifier {
  import opened Js
  import opened Hex

  /** The replay window, in seconds; an age of exactly this much is accepted. */
  const MaxAgeSeconds: nat := 300

  /** HMAC-SHA256 keyed by its first argument over its second. */
  type Hmac = (string, string) -> Mac

  /** `Math.abs(now - parseInt(timestamp))`: a number of seconds, or NaN
      when the timestamp header does not start with a number. */
  datatype Age = Seconds(n: nat) | NotANumber

  /** The reasons a delivery is not authenticated, in the order they are checked. */
  datatype Failure =
    | NoSecret
    | MissingSignature
    | MissingTimestamp
    | TimestampExpired(age: nat)
    | LengthMismatch
    | SignatureMismatch

  /** The result record: `valid`, `error`, `expectedSignature`,
      `providedSignature` and `timestampAge`; `None` is JavaScript's null. */
  datatype Verification = Verification(
    valid: bool,
    error: Option<Failure>,
    expectedSignature: Option<string>,
    providedSignature: Option<string>,
    timestampAge: Option<Age>)

  const ExpiredPrefix: string := "Timestamp expired: "
  const ExpiredSuffix: string := "s old (max 300s)"
  const MissingHeader: string := "Missing X-OilPriceAPI-Signature"

  /** The error text the result carries and the store keeps. The expired
      text carries the age in decimal between a fixed prefix and suffix, so
      the age can be read back from it. */
  function Message(f: Failure): (r: string)
    ensures f.TimestampExpired? <==>
              |r| > |ExpiredPrefix| + |ExpiredSuffix| && r[..|ExpiredPrefix|] == ExpiredPrefix
    ensures f.TimestampExpired? ==>
              && r[|r| - |ExpiredSuffix|..] == ExpiredSuffix
              && AllDigits(r[|ExpiredPrefix|..|r| - |ExpiredSuffix|], 10)
              && Magnitude(r[|ExpiredPrefix|..|r| - |ExpiredSuffix|], 10) == f.age
  {
    match f
    case NoSecret => "No secret configured"
    case MissingSignature =>
      var r := MissingHeader + " header";
      assert r[0] == 'M' && ExpiredPrefix[0] == 'T';
      assert r[..|ExpiredPrefix|][0] == r[0];
      r
    case MissingTimestamp =>
      var r := MissingHeader + "-Timestamp header";
      assert r[0] == 'M' && ExpiredPrefix[0] == 'T';
      assert r[..|ExpiredPrefix|][0] == r[0];
      r
    case TimestampExpired(age) =>
      var r := ExpiredPrefix + NatToString(age) + ExpiredSuffix;
      assert r[..|ExpiredPrefix|] == ExpiredPrefix;
      assert r[|ExpiredPrefix|..|r| - |ExpiredSuffix|] == NatToString(age);
      assert r[|r| - |ExpiredSuffix|..] == ExpiredSuffix;
      r
    case LengthMismatch => "Signature length mismatch"
    case SignatureMismatch => "Signature mismatch"
  }

  /** Distinct failures are reported with distinct texts, so the stored
      `signature_error` determines the failure (and an expired one its age). */
  lemma MessageInjective(f: Failure, g: Failure)
    requires Message(f) == Message(g)
    ensures f == g
  {
    var r := Message(f);
    if f.TimestampExpired? || g.TimestampExpired? {
      assert f.TimestampExpired? && g.TimestampExpired?;
    } else {
      assert r[..2] == Message(g)[..2];
      if f.MissingSignature? || f.MissingTimestamp? {
        assert |r| == |Message(g)|;
      } else if f.LengthMismatch? || f.SignatureMismatch? {
        assert |r| == |Message(g)|;
      }
    }
  }

  function AgeOf(timestamp: string, now: int): Age {
    match ParseInt(timestamp)
    case None => NotANumber
    case Some(t) => Seconds(if now >= t then now - t else t - now)
  }

  /** `timestampAge > 300` is false for NaN, so a timestamp that does not
      parse passes the window check. */
  predicate WithinWindow(age: Age) {
    age.NotANumber? || age.n <= MaxAgeSeconds
  }

  /** The signed text: the raw body, a period, and the raw timestamp string. */
  function SigningInput(payload: string, timestamp: string): string {
    payload + "." + timestamp
  }

  /** When a delivery counts as authentic, stated on the inputs alone: the
      secret and both headers are non-empty, the timestamp is inside the
      replay window, and the signature header decodes to the HMAC of the
      signing input. */
  predicate Authentic(payload: string, signature: Option<string>, timestamp: Option<string>,
                      secret: Option<string>, now: int, hmac: Hmac) {
    && Present(secret) && Present(signature) && Present(timestamp)
    && WithinWindow(AgeOf(timestamp.value, now))
    && Decode(signature.value) == hmac(secret.value, SigningInput(payload, timestamp.value))
  }

  /** `verifySignature(payload, signature, timestamp, secret)` at time `now`. */
  function Verify(payload: string, signature: Option<string>, timestamp: Option<string>,
                  secret: Option<string>, now: int, hmac: Hmac): (r: Verification)
    ensures r.providedSignature == signature
    ensures r.valid <==> r.error.None?
    ensures r.valid <==> Authentic(payload, signature, timestamp, secret, now, hmac)
    ensures r.timestampAge.Some? <==> Present(secret) && Present(signature) && Present(timestamp)
    ensures r.expectedSignature.Some? <==>
              r.timestampAge.Some? && WithinWindow(AgeOf(timestamp.value, now))
    ensures r.expectedSignature.Some? ==>
              Decode(r.expectedSignature.value) == hmac(secret.value, SigningInput(payload, timestamp.value))
    ensures r.expectedSignature.Some? ==> |r.expectedSignature.value| == 64 && LowerHex(r.expectedSignature.value)
    ensures r.timestampAge.Some? ==> r.timestampAge.value == AgeOf(timestamp.value, now)
  {
    var initial := Verification(false, None, None, signature, None);
    if !Present(secret) then initial.(error := Some(NoSecret))
    else if !Present(signature) then initial.(error := Some(MissingSignature))
    else if !Present(timestamp) then initial.(error := Some(MissingTimestamp))
    else
      var age := AgeOf(timestamp.value, now);
      var aged := initial.(timestampAge := Some(age));
      if !WithinWindow(age) then aged.(error := Some(TimestampExpired(age.n)))
      else
        var mac := hmac(secret.value, SigningInput(payload, timestamp.value));
        var expected := Encode(mac);
        var checked := aged.(expectedSignature := Some(expected));
        var providedBytes := Decode(signature.value);
        var expectedBytes := Decode(expected);
        DecodeEncodeMac(mac);
        if |providedBytes| != |expectedBytes| then checked.(error := Some(LengthMismatch))
        else if providedBytes == expectedBytes then checked.(valid := true)
        else checked.(error := Some(SignatureMismatch))
  }

  /** Without a (non-empty) secret nothing else is looked at. */
  lemma NoSecretShortCircuits(payload: string, signature: Option<string>, timestamp: Option<string>,
                              secret: Option<string>, now: int, hmac: Hmac)
    requires !Present(secret)
    ensures Verify(payload, signature, timestamp, secret, now, hmac)
         == Verification(false, Some(NoSecret), None, signature, None)
  {
  }

  /** With a secret, the signature header is checked before the timestamp
      header, and either failure stops before any age or HMAC is computed. */
  lemma HeadersCheckedInOrder(payload: string, signature: Option<string>, timestamp: Option<string>,
                              secret: Option<string>, now: int, hmac: Hmac)
    requires Present(secret)
    ensures var r := Verify(payload, signature, timestamp, secret, now, hmac);
            && (!Present(signature) ==> r == Verification(false, Some(MissingSignature), None, signature, None))
            && (Present(signature) && !Present(timestamp) ==>
                  r == Verification(false, Some(MissingTimestamp), None, signature, None))
  {
  }

  /** A numeric timestamp more than 300 seconds away from `now`, in either
      direction, is rejected as expired whatever the signature, with its age
      recorded and no expected signature computed. */
  lemma ExpiredTimestampRejected(payload: string, signature: Option<string>, timestamp: Option<string>,
                                 secret: Option<string>, now: int, hmac: Hmac, t: int)
    requires Present(secret) && Present(signature) && Present(timestamp)
    requires ParseInt(timestamp.value) == Some(t)
    requires now - t > 300 || t - now > 300
    ensures var r := Verify(payload, signature, timestamp, secret, now, hmac);
            var age := if now >= t then now - t else t - now;
            && !r.valid
            && r.error == Some(TimestampExpired(age))
            && r.timestampAge == Some(Seconds(age))
            && r.expectedSignature == None
  {
  }

  /** The window is closed at both ends: a timestamp exactly 300 seconds in
      the past or in the future gets past it, as does one that is not a
      number at all. */
  lemma WindowBoundary(payload: string, signature: Option<string>, timestamp: Option<string>,
                       secret: Option<string>, now: int, hmac: Hmac)
    requires Present(secret) && Present(signature) && Present(timestamp)
    requires || ParseInt(timestamp.value) == Some(now - 300)
             || ParseInt(timestamp.value) == Some(now + 300)
             || ParseInt(timestamp.value) == None
    ensures var r := Verify(payload, signature, timestamp, secret, now, hmac);
            r.expectedSignature.Some? && r.error != Some(TimestampExpired(300))
  {
  }

  /** A timestamp header that `parseInt` reads as NaN never expires: the
      outcome of a delivery carrying one is the same at every moment, so a
      delivery signed over such a timestamp can be replayed indefinitely. */
  lemma NonNumericTimestampNeverExpires(payload: string, signature: Option<string>, timestamp: Option<string>,
                                        secret: Option<string>, now1: int, now2: int, hmac: Hmac)
    requires Present(timestamp) && ParseInt(timestamp.value).None?
    ensures Verify(payload, signature, timestamp, secret, now1, hmac)
         == Verify(payload, signature, timestamp, secret, now2, hmac)
  {
  }

  /** Past the window, a signature that does not decode to as many bytes as
      a digest is a length mismatch; no bytes are compared. */
  lemma LengthMismatchRejected(payload: string, signature: Option<string>, timestamp: Option<string>,
                               secret: Option<string>, now: int, hmac: Hmac)
    requires Present(secret) && Present(signature) && Present(timestamp)
    requires WithinWindow(AgeOf(timestamp.value, now))
    requires |Decode(signature.value)| != 32
    ensures var r := Verify(payload, signature, timestamp, secret, now, hmac);
            !r.valid && r.error == Some(LengthMismatch)
            && r.expectedSignature == Some(Encode(hmac(secret.value, SigningInput(payload, timestamp.value))))
  {
  }

  /** A signature with a non-hexadecimal character among its first 64
      is a length mismatch, whatever follows: `"zz"` in front of the right
      digest text decodes to nothing and is rejected. */
  lemma BadHexIsLengthMismatch(payload: string, signature: Option<string>, timestamp: Option<string>,
                               secret: Option<string>, now: int, hmac: Hmac, k: nat)
    requires Present(secret) && Present(signature) && Present(timestamp)
    requires WithinWindow(AgeOf(timestamp.value, now))
    requires k < 64 && k < |signature.value| && DigitValue(signature.value[k]).None?
    ensures var r := Verify(payload, signature, timestamp, secret, now, hmac);
            !r.valid && r.error == Some(LengthMismatch)
  {
    DecodeStopsBefore(signature.value, k);
    LengthMismatchRejected(payload, signature, timestamp, secret, now, hmac);
  }

  /** Past the length check, the outcome is decided by byte equality alone:
      equal bytes are valid with no error; any differing byte (a single
      flipped byte, say) is a signature mismatch. */
  lemma BytesDecide(payload: string, signature: Option<string>, timestamp: Option<string>,
                    secret: Option<string>, now: int, hmac: Hmac)
    requires Present(secret) && Present(signature) && Present(timestamp)
    requires WithinWindow(AgeOf(timestamp.value, now))
    requires |Decode(signature.value)| == 32
    ensures var r := Verify(payload, signature, timestamp, secret, now, hmac);
            var mac := hmac(secret.value, SigningInput(payload, timestamp.value));
            && (r.valid <==> Decode(signature.value) == mac)
            && (r.valid ==> r.error == None)
            && (!r.valid ==> r.error == Some(SignatureMismatch))
  {
  }

  /** What `generateSignature` signs: a string verbatim, anything else as
      its `JSON.stringify` text (a parameter here). */
  datatype SignPayload = Text(text: string) | Value(json: Json)

  function PayloadText(payload: SignPayload, stringify: Json -> string): string {
    match payload
    case Text(text) => text
    case Value(json) => stringify(json)
  }

  datatype Signed = Signed(signature: string, timestamp: string)

  /** `generateSignature(payload, secret, timestamp)`: the timestamp
      defaults to the current Unix second `nowSeconds`. */
  function Generate(payload: SignPayload, secret: string, timestamp: Option<string>,
                    nowSeconds: nat, hmac: Hmac, stringify: Json -> string): (r: Signed)
    ensures Present(timestamp) ==> r.timestamp == timestamp.value
    ensures !Present(timestamp) ==> r.timestamp == NatToString(nowSeconds)
    ensures !Present(timestamp) ==> ParseInt(r.timestamp) == Some(nowSeconds)
    ensures r.timestamp != ""
    ensures |r.signature| == 64 && LowerHex(r.signature)
    ensures Decode(r.signature) == hmac(secret, SigningInput(PayloadText(payload, stringify), r.timestamp))
  {
    var ts := if Present(timestamp) then timestamp.value else NatToString(nowSeconds);
    ParseIntOfDecimal(nowSeconds, []);
    assert NatToString(nowSeconds) + [] == NatToString(nowSeconds);
    var mac := hmac(secret, SigningInput(PayloadText(payload, stringify), ts));
    DecodeEncodeMac(mac);
    Signed(Encode(mac), ts)
  }

  /** Round trip: what the signer produces for a string body under a given
      timestamp verifies under the same non-empty secret, provided that
      timestamp is inside the window at verification time. */
  lemma RoundTrip(payload: string, secret: string, timestamp: string, nowSeconds: nat,
                  now: int, hmac: Hmac, stringify: Json -> string)
    requires secret != "" && timestamp != ""
    requires WithinWindow(AgeOf(timestamp, now))
    ensures var s := Generate(Text(payload), secret, Some(timestamp), nowSeconds, hmac, stringify);
            Verify(payload, Some(s.signature), Some(s.timestamp), Some(secret), now, hmac).valid
  {
  }

  /** Round trip with the default timestamp: signing at second `nowSeconds`
      and verifying at second `now` succeeds whenever the two are at most
      300 seconds apart. */
  lemma RoundTripDefaultTimestamp(payload: string, secret: string, nowSeconds: nat,
                                  now: int, hmac: Hmac, stringify: Json -> string)
    requires secret != ""
    requires -300 <= now - nowSeconds <= 300
    ensures var s := Generate(Text(payload), secret, None, nowSeconds, hmac, stringify);
            Verify(payload, Some(s.signature), Some(s.timestamp), Some(secret), now, hmac).valid
  {
    var s := Generate(Text(payload), secret, None, nowSeconds, hmac, stringify);
    ParsedAge(s.timestamp, nowSeconds, now);
  }

  lemma ParsedAge(timestamp: string, t: int, now: int)
    requires ParseInt(timestamp) == Some(t)
    ensures AgeOf(timestamp, now) == Seconds(if now >= t then now - t else t - now)
  {
  }

  /** A body that is not a string is signed as its serialisation, so it
      verifies against that serialised text. */
  lemma RoundTripSerialised(json: Json, secret: string, timestamp: string, nowSeconds: nat,
                            now: int, hmac: Hmac, stringify: Json -> string)
    requires secret != "" && timestamp != ""
    requires WithinWindow(AgeOf(timestamp, now))
    ensures var s := Generate(Value(json), secret, Some(timestamp), nowSeconds, hmac, stringify);
            Verify(stringify(json), Some(s.signature), Some(s.timestamp), Some(secret), now, hmac).valid
  {
  }

  /** Because hexadecimal decoding stops at the first bad pair, a correct
      signature still verifies with any text appended that does not begin a
      further well-formed pair (an odd trailing digit, a suffix such as
      `"zz"`). */
  lemma TrailingTextIgnored(payload: string, timestamp: string, secret: string, now: int,
                            hmac: Hmac, tail: string)
    requires secret != "" && timestamp != ""
    requires WithinWindow(AgeOf(timestamp, now))
    requires Decode(tail) == []
    ensures var mac := hmac(secret, SigningInput(payload, timestamp));
            Verify(payload, Some(Encode(mac) + tail), Some(timestamp), Some(secret), now, hmac).valid
  {
    var mac := hmac(secret, SigningInput(payload, timestamp));
    DecodeEncode(mac, tail);
    assert mac + [] == mac;
  }
}
